=== FILE: README.md ===
# moview — a Dafny model of the app's screen logic

moview is an iOS client for browsing movies. It searches a public movie API. It stores comments and a per-user watchlist in a hosted document store, and it signs users in through a hosted auth service. Almost all of it is UIKit and backend glue. This project pulls out the sequential logic in the five view controllers and states it as pure Dafny functions over immutable records:

- **Home screen** (`ViewController`). It encodes search terms (spaces become `%20`). It runs a search that clears the result list and appends the decoded hits, reloading the table only when the hits arrive. It switches between search mode and suggestion mode. It loads suggestions: five fixed keywords, the first two hits of each successful search, and one table reload after every keyword has finished.
- **Detail screen** (`MovieDetailViewController`). It formats the info and rating labels. It builds comment documents and decodes them with defaults. It queries one movie's comments, newest first. It also has the watchlist button, a set-membership toggle whose label follows membership.
- **Watchlist screen** (`WatchlistViewController`). It turns watchlist documents into entries and drops any document that lacks a field.
- **Sign-up and sign-in** (`RegisterViewController`, `LoginViewController`). They run ordered validation chains. A hand-written e-mail matcher is proved equal to the regular expression. `setLoading` disables every control while loading. Each auth outcome decides the alert or segue that follows.

Network, auth and store calls are parameters: `Outcome`, `Ack` and `Response` values carry already-decoded results. The remote stores are plain values. The watchlists are a map from user ID to (movie ID to document), and the comments are a sequence of documents. Alerts and segues are abstract values.

Modules: `Common` (shared types), `QueryEncoding`, `MovieApi` (records), `Suggestions`, `Home`, `Comments`, `Detail`, `Watchlist`, `WatchlistToggle`, `Email`, `Register`, `Login`.

## Model

| member | source | states |
|---|---|---|
| QueryEncoding.Encode | moview/ViewController.swift:70 | the encoded term contains no space, is longer by two characters per space, and equals the input when the input has no space |
| QueryEncoding.EncodeAppend | moview/ViewController.swift:70 | encoding works character by character, so it distributes over concatenation and keeps the order of the input |
| QueryEncoding.DecodeEncode | moview/ViewController.swift:70 | for any text without a literal `%`, turning every `%20` back into a space recovers the text, so every other character is kept in place |
| Suggestions.Contribution | moview/ViewController.swift:144-162 | a keyword adds at most 2 hits: a prefix of its decoded list in API order, exactly 2 when there are that many. A bad URL, a transport error or a decode error adds nothing |
| Suggestions.Terms | moview/ViewController.swift:141-143 | the request for keyword k carries that keyword with its spaces encoded, and no term has a space |
| Suggestions.TermsDecode | moview/ViewController.swift:143 | decoding each request's term gives back its keyword when the keyword has no literal `%`, so each request asks for its own keyword |
| Suggestions.Merge | moview/ViewController.swift:157-159 | the merged list has at most 2 items per successful keyword, so at most 2 × the number of keywords |
| Suggestions.MergeAppend | moview/ViewController.swift:159 | appending outcomes appends their contributions, so each keyword's hits stay together and in order |
| Suggestions.MergeWithout | moview/ViewController.swift:149-163 | taking one outcome out of the arrival sequence and adding its contribution back gives the same multiset of suggestions |
| Suggestions.MergeOrderIrrelevant | moview/ViewController.swift:149-163 | two arrival orders of the same outcomes merge to permutations of each other: the order may differ, the contents never do |
| Suggestions.Begin | moview/ViewController.swift:136-168 | a new load starts with no suggestions and one outstanding request per keyword. The completion handler runs at once only when there are no keywords |
| Suggestions.Arrive | moview/ViewController.swift:149-159 | a completing keyword path appends its contribution and leaves the group once, so one fewer request is outstanding |
| Suggestions.Run | moview/ViewController.swift:138-169 | after k arrivals, n − k requests are outstanding and the list is the merge of those arrivals. The reload has run once if all n arrived, and not at all otherwise |
| Suggestions.ReloadOnlyAfterAll | moview/ViewController.swift:136-169 | starting from the cleared list, the reload runs only after every keyword has finished, and then exactly once |
| Suggestions.LoadSuggestions | moview/ViewController.swift:134-170 | for any arrival order of the five keywords' outcomes: nothing is outstanding, the reload ran once, the list is a permutation of the keyword-order merge, and it has at most 2 × successes ≤ 10 items |
| Home.BeginSearch | moview/ViewController.swift:63-71 | empty text sends no request and changes nothing. Otherwise the results are cleared and the request carries the encoded term, which has no space. The table is not reloaded, so it keeps its old rows |
| Home.CompleteSearch | moview/ViewController.swift:75-99 | a decoded list is appended to the current results and the table reloaded. A transport or decode error returns before the reload and changes nothing. The mode and suggestions are never touched |
| Home.ShouldReturn | moview/ViewController.swift:47-51 | Return turns search mode on and never touches the suggestions. A request is sent iff the field is not empty, and the term it carries has no space. Unless the response decodes, the table keeps the rows it had |
| Home.ShouldReturnReplaces | moview/ViewController.swift:47-94 | Return turns search mode on. Empty text leaves the results unchanged and sends nothing. Otherwise the results become exactly the decoded list, or empty on failure |
| Home.DidChangeSelection | moview/ViewController.swift:54-58 | emptying the field turns search mode off and reloads the table. Any other edit changes nothing, and neither touches the lists |
| Home.RowCount | moview/ViewController.swift:107-109 | the row count is the number of search results in search mode and the number of suggestions otherwise |
| Home.CellMovie | moview/ViewController.swift:112-117 | for a row the table has, the cell shows the search result at that index in search mode and the suggestion otherwise. It traps iff the index is past the end of that list |
| Home.SelectRow | moview/ViewController.swift:123-130 | for a row the table has, selecting it hands on the IMDb ID of the result or suggestion at that index, depending on the mode. It traps iff the index is past the end of that list |
| Home.RowsFollowMode | moview/ViewController.swift:107-130 | the row count, the cell contents and the selected movie all come from the list the current mode picks. When the table was reloaded since the lists last changed, no row it has traps |
| Home.SearchThenClear | moview/ViewController.swift:47-99 | after a successful search the table has one row per hit, and row i opens hit i. Clearing the field then shows the untouched suggestions |
| Home.SuggestionsLoaded | moview/ViewController.swift:166-169 | when the suggestion group completes, the suggestions become the collected list and the table is reloaded in step with the current mode. In suggestion mode it shows one row per suggestion; in search mode the reload shows the results. The results and the mode are untouched |
| Home.StaleRowsTrap | moview/ViewController.swift:63-126 | once the table has a row, a search for non-empty text leaves it with those rows and no results while the request is out. Row 0 traps then. After a transport or decode error every row the table has traps |
| Home.BeginSearchReloading | moview/ViewController.swift:63-71 | the repaired search start: the same request as the search as written, with the results cleared and the table reloaded to match |
| Home.CompleteSearchReloading | moview/ViewController.swift:75-99 | the repaired completion handler: the same results as the handler as written, and the table reloaded on every path |
| Home.ShouldReturnReloading | moview/ViewController.swift:47-99 | the repaired Return: the same request and results as the search as written (the decoded list, or empty on failure), with the table in step with the results |
| Home.ReloadingNeverTraps | moview/ViewController.swift:47-126 | with the repair, no row the table has traps, neither while the request is out nor after it ends. A successful search ends exactly as it does without the repair |
| Comments.CommentDoc | moview/MovieDetailViewController.swift:181-186 | a stored comment has exactly the fields user, comment, timestamp and movieID. It holds the user's e-mail (or "anon"), the text and the movie ID |
| Comments.DecodeComment | moview/MovieDetailViewController.swift:228-233 | a missing or non-string user reads as "anonim" and a missing text as "". A timestamp value is read as its instant, and any other or missing value as the current time. Present string fields are taken as they are |
| Comments.DecodeCommentDoc | moview/MovieDetailViewController.swift:181-233 | a comment written by the save reads back with the same author, text and timestamp |
| Comments.DecodeAll | moview/MovieDetailViewController.swift:227-234 | no document is dropped: there is one comment per document, in snapshot order |
| Comments.Filter | moview/MovieDetailViewController.swift:213-215 | a document is selected iff it is stored, its movieID is the movie's ID, and it has a `timestamp` field of any type. A matching document is selected as many times as it is stored; only documents that lack the ordering field are left out |
| Comments.Insert | moview/MovieDetailViewController.swift:215 | inserting into a newest-first list keeps it newest first and adds exactly that document |
| Comments.SortNewestFirst | moview/MovieDetailViewController.swift:215 | the result is in descending `timestamp` order: strings first, then timestamps newest first, then other values. It is a permutation of the input |
| Comments.Query | moview/MovieDetailViewController.swift:213-216 | the query returns exactly the matching documents, each as often as stored, in descending `timestamp` order. A document whose `timestamp` is not a timestamp is still returned, and the decoder gives it the current time |
| Comments.NewCommentFirst | moview/MovieDetailViewController.swift:181-216 | a comment saved when the device clock reads later than every stored comment of the movie is first in the re-fetched list. Stored comments may also have a null, boolean or number timestamp, which sorts lower |
| Detail.RatingText | moview/MovieDetailViewController.swift:148 | the rating label starts with the star and a space, and the rest of it is the rating as received |
| Detail.ParseInfoText | moview/MovieDetailViewController.swift:141-145 | the info label is exactly three lines, "Yıl: Y", "Tür: G" and "Yönetmen: D", so year, genre and director can be read back off it |
| Detail.FetchMovieDetail | moview/MovieDetailViewController.swift:100-131 | with no ID nothing happens. When the URL cannot be built the spinner keeps running. Any response stops it; a decoded record fills the title, plot, info and rating labels and leaves the comments, the comment field, Send and any alert as they were. A failure changes nothing else |
| Detail.UpdateUI | moview/MovieDetailViewController.swift:135-148 | the record is kept, the title and plot labels show its title and plot, and the info label is its three labelled lines. The rating label is the star followed by the rating. The comments, the comment field, Send, the spinner and any alert are untouched |
| Detail.FetchShowsRecord | moview/MovieDetailViewController.swift:100-148 | after a successful fetch, the title and plot labels show the record's title and plot. The rating reads back after the star, and year, genre and director read back off the info label |
| Detail.FetchComments | moview/MovieDetailViewController.swift:207-239 | with no ID nothing happens. Otherwise the spinner stops. An error keeps the comments; a result shows one decoded comment per document of this movie, newest first. Nothing else on the screen changes |
| Detail.SendCommentAsWritten | moview/MovieDetailViewController.swift:164-178 | the comment is the text of the comment field. An empty field does nothing. Without a signed-in user or an ID, the send is cut short with the field cleared, Send disabled and the spinner running |
| Detail.SendWithoutUserSticks | moview/MovieDetailViewController.swift:164-178 | without a signed-in user, any non-empty comment field leaves Send disabled and the spinner running, and nothing is stored |
| Detail.SaveComment | moview/MovieDetailViewController.swift:176-203 | whatever the outcome, Send is re-enabled and the spinner stopped. A failure stores nothing, alerts and keeps the comments shown; a success appends the comment document, stamped with the clock at saving, to the collection and shows no alert. The re-fetch decodes with its own, later clock. Only Send, the spinner, the alert and the comments change |
| Detail.SendComment | moview/MovieDetailViewController.swift:164-203 | an empty comment field does nothing. Any other text clears the field and ends with Send enabled and the spinner stopped. The collection grows by exactly the new document iff user, ID and save are all present and successful, and only then can the comments shown change. Only a failed save raises an alert, and nothing else on the screen changes |
| Detail.SentCommentShownFirst | moview/MovieDetailViewController.swift:188-215 | a comment sent later than all the movie's stored comments is shown first after the re-fetch, with the e-mail (or "anon") as author and the text as typed |
| WatchlistToggle.EntryDoc | moview/MovieDetailViewController.swift:274-278 | an added entry's document holds the title, year and poster as strings |
| WatchlistToggle.DidTapWatchlist | moview/MovieDetailViewController.swift:243-294 | a no-op unless the ID, the user and the movie are all present; otherwise the button ends enabled. A successful write flips membership after a successful read, and lists the movie after a failed read (which is taken as not listed). It sets the label to match. A failed write changes nothing but alerts. No other entry or user changes |
| WatchlistToggle.DoubleToggle | moview/MovieDetailViewController.swift:257-292 | two successful taps restore membership and the label. For a movie that was not listed, every collection is restored exactly |
| WatchlistToggle.CheckWatchlistStatus | moview/MovieDetailViewController.swift:297-322 | with an ID and a user, the label reads "✓ Watchlisted" iff the read succeeds and finds the entry, and "+ Watchlist" otherwise |
| WatchlistToggle.TapAgreesWithStatus | moview/MovieDetailViewController.swift:265-319 | after a successful tap the button shows what a status check of the new store would show |
| WatchlistToggle.TapShowsOnWatchlist | moview/MovieDetailViewController.swift:274-279 | after a successful add, the watchlist screen's entries include the movie with its title, poster and year. After a successful remove no entry has its ID |
| Watchlist.ToEntry | moview/WatchlistViewController.swift:59-67 | a document yields an entry iff title, poster and year are all strings. The entry's movieID is the document ID and its fields copy those three |
| Watchlist.Entries | moview/WatchlistViewController.swift:55-68 | there is one entry per complete document, so never more entries than documents. A movie is an entry iff some document yields it |
| Watchlist.EntriesAppend | moview/WatchlistViewController.swift:55-68 | entries keep document order, so the result is an ordered selection of the snapshot |
| Watchlist.EntriesOfComplete | moview/WatchlistViewController.swift:55-68 | when every document is complete, entry i is the entry of document i |
| Watchlist.FetchWatchlist | moview/WatchlistViewController.swift:40-77 | no user or a read error leaves the list unchanged, and a missing snapshot empties it. Otherwise the list is the snapshot's entries |
| Watchlist.RowsAfterFetch | moview/WatchlistViewController.swift:81-83 | the row count is the list's length: unchanged after an error, and the number of complete documents after a read |
| Email.IsValidEmail | moview/RegisterViewController.swift:160-164 | an accepted address is at least six characters long, contains an `@`, and ends in a letter; Email.IsValidEmailMatchesPattern proves it accepts exactly the pattern |
| Email.LocalRun | moview/RegisterViewController.swift:161 | the scanner's local part is the longest run of `[A-Za-z0-9._%+-]` characters from the start |
| Email.LastDot | moview/RegisterViewController.swift:161 | the scanner finds the last dot of a range, or proves the range has none |
| Email.IsValidEmailMatchesPattern | moview/RegisterViewController.swift:160-164 | the matcher accepts exactly the strings of the form L@D.T with L non-empty over `[A-Za-z0-9._%+-]`, D non-empty over `[A-Za-z0-9.-]`, and T 2 to 64 ASCII letters |
| Register.Validate | moview/RegisterViewController.swift:93-110 | the form proceeds iff every field is filled, the password has at least 6 characters and the e-mail matches the pattern. Otherwise the first failing check, in that order, picks the message |
| Register.ChecksRunInOrder | moview/RegisterViewController.swift:93-110 | the short-password message needs every field filled, the e-mail message needs the length check passed, and an empty password is reported as a missing field |
| Register.SetLoading | moview/RegisterViewController.swift:167-180 | setLoading(b) makes the indicator spin and show iff b, and sets all five controls' enabled flag to ¬b |
| Register.RegisterTapped | moview/RegisterViewController.swift:92-146 | a rejected form only alerts. An accepted one requests the account with every control disabled meanwhile, and always clears loading at the end. A creation error alerts with no display name and no segue. After a successful creation the profile commit carries the entered name as display name, and a failed commit alerts with its error. "showMain" is performed iff creation and the profile commit both succeed |
| Login.SetLoading | moview/LoginViewController.swift:162-175 | setLoading(b) makes the indicator spin and show iff b, and sets all five controls' enabled flag to ¬b |
| Login.LoginTapped | moview/LoginViewController.swift:95-122 | an empty e-mail or password only alerts, with no sign-in attempt. Otherwise the credentials are sent with every control disabled meanwhile, and loading is always cleared. An error alerts with no segue; success performs "showMain" |
| Login.ForgotPassword | moview/LoginViewController.swift:130-153 | an empty e-mail only alerts and sends no request. Otherwise a reset is requested for that address, the spinner stops, the controls stay as they were, and the alert reports success or the error |

## Left out

- Concurrency. `DispatchGroup`, URLSession callbacks and main-queue hops are modelled as one sequential fold. All five `enter` calls happen before any completion. Any arrival order of the per-keyword outcomes is allowed. Races on the unsynchronised `suggestedMovies` and `isSearching` globals are not modelled.
- Overlapping searches. `CompleteSearch` appends to whatever results are current, as the source does. The lemmas cover one search at a time, so two interleaved searches that concatenate their results are not explored. The append on the request's queue and the reload on the main queue are one step in the model.
- URL construction is a boolean parameter (`BadUrl`, `urlValid`). In `searchMovies` the URL is force-unwrapped, and the crash on an invalid URL is not modelled.
- JSON decoding, Firebase Auth, Firestore and URLSession are abstract `Response`, `Outcome` and `Ack` values over already-decoded records. Error texts are opaque strings.
- Alert titles and texts, segues as navigation, `DateFormatter` output, fonts, colours and image loading are left out. Only the choice of alert and the segue identifier are modelled.
- Paths that end in `guard let self = self else { return }` (a deallocated controller) are not modelled.
- `checkWatchlistStatus` starts and stops the detail spinner. The model tracks only the label.
- The forgot-password flow shows the indicator through `hidesWhenStopped`. The model tracks only whether it spins.
- Register.RegisterTapped: assumes the new account is the current user after `createUser` succeeds. If there were no current user, `commitChanges` would never run and loading would never clear; this is not modelled.
- Comments.Query: the store breaks timestamp ties by document ID. The model promises only some descending order of exactly the matching documents.
- Comments.Query: orders `timestamp` values only by kind among non-timestamps. Strings come first and other values last, but strings are not ordered among themselves, and neither are the other values. The model's single "other" kind sorts below timestamps. That is right for null, booleans and numbers, but the store puts bytes, references, geo points, arrays and maps above strings.
- QueryEncoding.Encode: replaces every space character, whereas `replacingOccurrences(of:with:)` without the literal option compares whole composed character sequences. A space followed by a combining mark ("a \u{301}b") is one character that is not a space there, so the source keeps that space, and the no-space promise of `Encode`, `Home.BeginSearch` and `Suggestions.Terms` does not carry over to such text.
- Swift's grapheme-cluster `String.count` is modelled as the length of a `seq<char>`. NSPredicate's regular-expression engine is replaced by a hand-written ASCII matcher.
- The navigation-only actions `registerButtonTapped` (sign-in screen, segue "showRegister") and `loginButtonTapped` (sign-up screen, dismiss) are left out.
- `ProfileViewController`, `MovieTableViewCell`, `AppDelegate` and `SceneDelegate` are not part of this model. They are lifecycle wiring, cell styling, and thin wrappers over auth and count queries.
- The detail spinner and invalid URLs. The detail screen's loading indicator does not always stop, and the model follows the code here: when the detail URL cannot be built, `fetchMovieDetail` returns after starting the spinner (`Detail.FetchMovieDetail`).

## Findings

| source | as written | input that shows it | evidently intended | confidence | as-written member | corrected member |
|---|---|---|---|---|---|---|
| moview/MovieDetailViewController.swift:164-178 | `didTapSendComment` disables Send and starts the spinner, then calls `saveCommentToFirestore`. With no signed-in user or no IMDb ID, that returns before anything re-enables Send or stops the spinner | no signed-in user, comment field holding "a" (Detail.SendWithoutUserSticks proves this for every non-empty text) | the early return re-enables Send and stops the spinner, as every other path does | medium, not executed | Detail.SendCommentAsWritten | Detail.SendComment |
| moview/ViewController.swift:63-99 | `searchMovies` empties `movies` without reloading the table, and its completion handler returns on a transport or decode error before the reload. The table keeps its old rows while search mode reads the empty result list, and `cellForRowAt` and `didSelectRowAt` index `movies[indexPath.row]` past its end | suggestions shown, then a search for a term the API has no hit for (its reply has no `Search` list, so decoding fails), then a tap on row 0 (Home.StaleRowsTrap) | the table is reloaded whenever the result list changes, so that it never has more rows than the list | medium, not executed | Home.ShouldReturn | Home.ShouldReturnReloading |

=== FILE: comments.dfy ===
/** Comments on the detail screen: the document a new comment is stored
    as, the defaulting decoder the screen reads documents back with, and the
    store query it issues (this movie's comments, newest first). */
module Comments {
  import opened Common

  /** A comment as the table shows it. */
  datatype Comment = Comment(user: string, text: string, timestamp: int)

  const UserKey: string := "user"
  const CommentKey: string := "comment"
  const TimestampKey: string := "timestamp"
  const MovieIdKey: string := "movieID"

  /** Author written when the signed-in user has no e-mail. */
  const NoEmail: string := "anon"
  /** Author read back when a document has no string `user` field. */
  const MissingUser: string := "anonim"

  /** The document `saveCommentToFirestore` adds, with `now` standing for
      `Timestamp()`: the device clock's reading at that moment. */
  function CommentDoc(email: Option<string>, text: string, now: int, movieID: string): (d: Doc)
    ensures d.Keys == {UserKey, CommentKey, TimestampKey, MovieIdKey}
    ensures StrField(d, MovieIdKey) == Some(movieID)
    ensures StrField(d, CommentKey) == Some(text)
    ensures email.Some? ==> StrField(d, UserKey) == email
    ensures email.None? ==> StrField(d, UserKey) == Some(NoEmail)
  {
    map[UserKey := Str(if email.Some? then email.value else NoEmail),
        CommentKey := Str(text),
        TimestampKey := Stamp(now),
        MovieIdKey := Str(movieID)]
  }

  /** The decoder of `fetchComments`: each field falls back to a default
      (`now` for the timestamp, standing for `Date()`) instead of failing. */
  function DecodeComment(d: Doc, now: int): (c: Comment)
    ensures StrField(d, UserKey).None? ==> c.user == MissingUser
    ensures StrField(d, UserKey).Some? ==> c.user == StrField(d, UserKey).value
    ensures StrField(d, CommentKey).None? ==> c.text == []
    ensures StrField(d, CommentKey).Some? ==> c.text == StrField(d, CommentKey).value
    ensures TimestampKey in d && d[TimestampKey].Stamp? ==> c.timestamp == d[TimestampKey].instant
    ensures !(TimestampKey in d && d[TimestampKey].Stamp?) ==> c.timestamp == now
  {
    var user := match StrField(d, UserKey) case Some(u) => u case None => MissingUser;
    var text := match StrField(d, CommentKey) case Some(t) => t case None => [];
    var stamp := if TimestampKey in d && d[TimestampKey].Stamp? then d[TimestampKey].instant else now;
    Comment(user, text, stamp)
  }

  /** A stored comment reads back as written: the author (or "anon"), the
      text and the timestamp survive the round trip. */
  lemma DecodeCommentDoc(email: Option<string>, text: string, t: int, movieID: string, now: int)
    ensures DecodeComment(CommentDoc(email, text, t, movieID), now)
         == Comment(if email.Some? then email.value else NoEmail, text, t)
  {
  }

  /** The `compactMap` over the snapshot: its closure never yields `nil`,
      so every document becomes exactly one comment, in snapshot order. */
  function DecodeAll(docs: seq<Doc>, now: int): (cs: seq<Comment>)
    ensures |cs| == |docs|
    ensures forall i :: 0 <= i < |docs| ==> cs[i] == DecodeComment(docs[i], now)
  {
    if docs == [] then [] else [DecodeComment(docs[0], now)] + DecodeAll(docs[1..], now)
  }

  /** A document the query `movieID == id ordered by timestamp` returns:
      its `movieID` is the string `id`, and it has a `timestamp` field.
      The store leaves out only documents without the ordering field; one
      whose `timestamp` holds a string or any other value is returned. */
  predicate InQuery(d: Doc, id: string)
  {
    StrField(d, MovieIdKey) == Some(id) && TimestampKey in d
  }

  /** Where a document sorts on `timestamp`: first by the kind of value,
      in the store's order of value types, then by instant among
      timestamps. */
  datatype Rank = Rank(kind: int, instant: int)

  /** Null, booleans and numbers sort below timestamps, and strings above
      them. */
  const OtherKind: int := 0
  const StampKind: int := 1
  const StrKind: int := 2

  function RankOf(d: Doc): Rank
  {
    if TimestampKey !in d then Rank(OtherKind, 0)
    else match d[TimestampKey]
      case Other => Rank(OtherKind, 0)
      case Stamp(t) => Rank(StampKind, t)
      case Str(_) => Rank(StrKind, 0)
  }

  /** `a` sorts no lower than `b`. */
  predicate AtLeast(a: Rank, b: Rank)
  {
    a.kind > b.kind || (a.kind == b.kind && a.instant >= b.instant)
  }

  /** Along the list the rank never increases: the descending order of
      `order(by: "timestamp", descending: true)`. */
  predicate NewestFirst(ds: seq<Doc>)
  {
    forall i, j :: 0 <= i < j < |ds| ==> AtLeast(RankOf(ds[i]), RankOf(ds[j]))
  }

  /** The documents of the collection that match the filter, in store
      order. */
  function Filter(store: seq<Doc>, id: string): (r: seq<Doc>)
    ensures forall d :: d in r <==> d in store && InQuery(d, id)
    ensures forall d :: multiset(r)[d] == if InQuery(d, id) then multiset(store)[d] else 0
  {
    if store == [] then []
    else
      var rest := Filter(store[1..], id);
      assert multiset(store) == multiset{store[0]} + multiset(store[1..]) by {
        assert store == [store[0]] + store[1..];
      }
      (if InQuery(store[0], id) then [store[0]] else []) + rest
  }

  /** No document of `ds` sorts above `t`. */
  predicate NoneNewerThan(ds: seq<Doc>, t: Rank)
  {
    forall x :: x in ds ==> AtLeast(t, RankOf(x))
  }

  /** The head of a newest-first list is its newest document, and the rest
      of it is newest first too. */
  lemma HeadNewest(ds: seq<Doc>)
    requires ds != [] && NewestFirst(ds)
    ensures NewestFirst(ds[1..]) && NoneNewerThan(ds[1..], RankOf(ds[0]))
  {
    forall x | x in ds[1..] ensures AtLeast(RankOf(ds[0]), RankOf(x)) {
      var k :| 0 <= k < |ds[1..]| && ds[1..][k] == x;
      assert ds[k + 1] == x;
    }
  }

  /** A document no older than every document of a newest-first list may go
      in front of it. */
  lemma ConsNewestFirst(x: Doc, rest: seq<Doc>)
    requires NewestFirst(rest) && NoneNewerThan(rest, RankOf(x))
    ensures NewestFirst([x] + rest)
  {
    forall i, j | 0 <= i < j < |[x] + rest| ensures AtLeast(RankOf(([x] + rest)[i]), RankOf(([x] + rest)[j])) {
      assert ([x] + rest)[j] == rest[j - 1];
      if i > 0 {
        assert ([x] + rest)[i] == rest[i - 1];
      } else {
        assert rest[j - 1] in rest;
      }
    }
  }

  /** A bound on every document carries over to any list holding the same
      documents plus one more within the bound. */
  lemma BoundCarries(r: seq<Doc>, ds: seq<Doc>, d: Doc, t: Rank)
    requires multiset(r) == multiset(ds) + multiset{d}
    requires NoneNewerThan(ds, t) && AtLeast(t, RankOf(d))
    ensures NoneNewerThan(r, t)
  {
    forall x | x in r ensures AtLeast(t, RankOf(x)) {
      assert x in multiset(r);
      if x != d {
        assert x in multiset(ds);
      }
    }
  }

  /** Places `d` into a newest-first list. */
  function Insert(d: Doc, ds: seq<Doc>): (r: seq<Doc>)
    requires NewestFirst(ds)
    ensures NewestFirst(r)
    ensures multiset(r) == multiset(ds) + multiset{d}
  {
    if ds == [] then [d]
    else if AtLeast(RankOf(d), RankOf(ds[0])) then
      HeadNewest(ds);
      ConsNewestFirst(d, ds);
      [d] + ds
    else
      HeadNewest(ds);
      var rest := Insert(d, ds[1..]);
      BoundCarries(rest, ds[1..], d, RankOf(ds[0]));
      ConsNewestFirst(ds[0], rest);
      RemoveFirst(ds);
      [ds[0]] + rest
  }

  /** Orders documents by descending rank (insertion sort). */
  function SortNewestFirst(ds: seq<Doc>): (r: seq<Doc>)
    ensures NewestFirst(r)
    ensures multiset(r) == multiset(ds)
  {
    if ds == [] then []
    else
      assert ds == [ds[0]] + ds[1..];
      Insert(ds[0], SortNewestFirst(ds[1..]))
  }

  /** What the comment query returns for movie `id`: exactly the matching
      documents of the collection, each as often as it is stored, in
      descending timestamp order. */
  function Query(store: seq<Doc>, id: string): (r: seq<Doc>)
    ensures NewestFirst(r)
    ensures multiset(r) == multiset(Filter(store, id))
    ensures forall d :: multiset(r)[d] == if InQuery(d, id) then multiset(store)[d] else 0
    ensures forall d :: d in r <==> d in store && InQuery(d, id)
  {
    var r := SortNewestFirst(Filter(store, id));
    assert forall d :: d in r <==> d in multiset(r);
    assert forall d :: d in Filter(store, id) <==> d in multiset(Filter(store, id));
    r
  }

  /** `d` sorts strictly below a timestamp taken at `now`: its timestamp
      is an earlier instant, or a null, boolean or number. */
  predicate SortsBelow(d: Doc, now: int)
  {
    !AtLeast(RankOf(d), Rank(StampKind, now))
  }

  /** A comment saved when the device clock reads later than every stored
      comment of the movie sorts below is the first one the re-fetch
      shows. */
  lemma NewCommentFirst(store: seq<Doc>, email: Option<string>, text: string, now: int, id: string)
    requires forall d :: d in store && InQuery(d, id) ==> SortsBelow(d, now)
    ensures Query(store + [CommentDoc(email, text, now, id)], id) != []
    ensures Query(store + [CommentDoc(email, text, now, id)], id)[0] == CommentDoc(email, text, now, id)
  {
    var c := CommentDoc(email, text, now, id);
    var r := Query(store + [c], id);
    assert InQuery(c, id) && RankOf(c) == Rank(StampKind, now);
    assert c in store + [c];
    assert c in r;
    var k :| 0 <= k < |r| && r[k] == c;
    assert AtLeast(RankOf(r[0]), RankOf(c));
    assert r[0] in store + [c];
  }
}

=== FILE: common.dfy ===
/** Shared vocabulary of the moview model: optional values, the outcomes of
    remote calls (movie API, auth service, document store), and the field
    values of document-store records. */
module Common {

  /** Swift's `Optional`. */
  datatype Option<+T> = None | Some(value: T)

  /** The result of a remote read: a value, or a failure of any kind
      (transport, backend error, decode error) that the app collapses into
      one path. */
  datatype Outcome<+T> = Ok(value: T) | Failed

  /** The completion of a remote write or auth call: `error == nil`, or an
      error whose localized description the app shows. */
  datatype Ack = Acked | Rejected(reason: string)

  /** A document-store field value, as far as the app inspects it: a string,
      a timestamp (an instant of the device clock, in the clock's own
      ticks), or anything else. */
  datatype Value = Str(s: string) | Stamp(instant: int) | Other

  /** A document's data: field name to value. */
  type Doc = map<string, Value>

  /** A document of a snapshot: its ID and its data. */
  datatype Document = Document(id: string, data: Doc)

  /** `data[key] as? String`: present only when the field holds a string. */
  function StrField(d: Doc, key: string): Option<string>
  {
    if key in d && d[key].Str? then Some(d[key].s) else None
  }

  /** Swift's `prefix(n)`: the first `n` elements, or all of them when there
      are fewer. */
  function Take<T>(xs: seq<T>, n: nat): (r: seq<T>)
    ensures r <= xs
    ensures |r| == if |xs| < n then |xs| else n
  {
    if |xs| <= n then xs else xs[..n]
  }

  /** Concatenation is associative; kept apart so that proofs about
      recursive functions on sequences need not redo it in their own
      context. */
  lemma ConcatAssoc<T>(x: seq<T>, y: seq<T>, z: seq<T>)
    ensures x + (y + z) == (x + y) + z
  {
  }

  /** Taking the element at `k` out of a sequence takes one copy of it out
      of the sequence's multiset. */
  lemma RemoveAt<T>(s: seq<T>, k: nat)
    requires k < |s|
    ensures multiset(s[..k] + s[k + 1..]) == multiset(s) - multiset{s[k]}
  {
    assert s == s[..k] + [s[k]] + s[k + 1..];
  }

  /** The same for the first element. */
  lemma RemoveFirst<T>(s: seq<T>)
    requires s != []
    ensures multiset(s[1..]) == multiset(s) - multiset{s[0]}
  {
    assert s == [s[0]] + s[1..];
  }

  /** A sequence is its part before `k`, its element at `k` and its part
      after `k`. */
  lemma SplitAt<T>(s: seq<T>, k: nat)
    requires k < |s|
    ensures s == (s[..k] + [s[k]]) + s[k + 1..]
  {
  }

  /** Taking the middle part out of a three-part sequence takes exactly its
      elements out of the multiset. */
  lemma MultisetMiddle<T>(p: seq<T>, c: seq<T>, q: seq<T>)
    ensures multiset((p + c) + q) == multiset(c) + multiset(p + q)
  {
  }
}

=== FILE: detail.dfy ===
/** The detail screen (`MovieDetailViewController`) apart from its
    watchlist button: loading the movie record into the labels, and
    sending, storing and re-reading comments. */
module Detail {
  import opened Common
  import opened MovieApi
  import opened Comments

  const YearLabel: string := "Y\U{0131}l: "
  const GenreLabel: string := "T\U{00FC}r: "
  const DirectorLabel: string := "Y\U{00F6}netmen: "
  const RatingPrefix: string := "\U{2B50}\U{FE0F} "

  /** The info label's three lines: year, genre, director. */
  function InfoText(m: MovieDetail): string
  {
    YearLabel + m.year + "\n" + GenreLabel + m.genre + "\n" + DirectorLabel + m.director
  }

  /** The rating label: the star, a space, then the rating as received. */
  function RatingText(rating: string): (t: string)
    ensures RatingPrefix <= t
    ensures t[|RatingPrefix|..] == rating
  {
    RatingPrefix + rating
  }

  /** `s` split at every line break (an empty string is one empty line). */
  function Lines(s: string): (r: seq<string>)
    ensures |r| >= 1
  {
    if s == [] then [[]]
    else
      var rest := Lines(s[1..]);
      if s[0] == '\n' then [[]] + rest else [[s[0]] + rest[0]] + rest[1..]
  }

  lemma {:induction false} LinesOfLine(a: string)
    requires '\n' !in a
    ensures Lines(a) == [a]
    decreases |a|
  {
    if a != [] {
      assert '\n' !in a[1..] by {
        forall k | 0 <= k < |a[1..]| ensures a[1..][k] != '\n' {
          assert a[1..][k] == a[k + 1];
        }
      }
      LinesOfLine(a[1..]);
      assert a == [a[0]] + a[1..];
    }
  }

  lemma {:induction false} LinesOfBreak(a: string, b: string)
    requires '\n' !in a
    ensures Lines(a + "\n" + b) == [a] + Lines(b)
    decreases |a|
  {
    if a == [] {
      assert a + "\n" + b == "\n" + b;
      assert ("\n" + b)[1..] == b;
    } else {
      assert '\n' !in a[1..] by {
        forall k | 0 <= k < |a[1..]| ensures a[1..][k] != '\n' {
          assert a[1..][k] == a[k + 1];
        }
      }
      LinesOfBreak(a[1..], b);
      assert (a + "\n" + b)[0] == a[0];
      assert (a + "\n" + b)[1..] == a[1..] + "\n" + b;
      assert a == [a[0]] + a[1..];
    }
  }

  /** Reads year, genre and director back off an info label. */
  function ParseInfo(s: string): Option<(string, string, string)>
  {
    var ls := Lines(s);
    if |ls| == 3 && YearLabel <= ls[0] && GenreLabel <= ls[1] && DirectorLabel <= ls[2] then
      Some((ls[0][|YearLabel|..], ls[1][|GenreLabel|..], ls[2][|DirectorLabel|..]))
    else None
  }

  /** The info label is the three labelled lines and nothing else: for
      single-line field values, year, genre and director can be read back
      off it, in that order. */
  lemma {:induction false} ParseInfoText(m: MovieDetail)
    requires '\n' !in m.year && '\n' !in m.genre && '\n' !in m.director
    ensures ParseInfo(InfoText(m)) == Some((m.year, m.genre, m.director))
  {
    var l1, l2, l3 := YearLabel + m.year, GenreLabel + m.genre, DirectorLabel + m.director;
    assert '\n' !in YearLabel && '\n' !in GenreLabel && '\n' !in DirectorLabel;
    assert '\n' !in l1 && '\n' !in l2 && '\n' !in l3;
    assert InfoText(m) == l1 + "\n" + (l2 + "\n" + l3);
    LinesOfBreak(l1, l2 + "\n" + l3);
    LinesOfBreak(l2, l3);
    LinesOfLine(l3);
    assert Lines(InfoText(m)) == [l1, l2, l3];
  }

  /** The alert the comment flow can show. */
  datatype Message = CommentFailed

  /** The signed-in user, if any: ID and (possibly missing) e-mail. */
  datatype User = User(uid: string, email: Option<string>)

  /** What the screen shows and which of its controls are live. */
  datatype Screen = Screen(
    movie: Option<MovieDetail>,
    titleText: string,
    plotText: string,
    infoText: string,
    ratingText: string,
    comments: seq<Comment>,
    commentField: string,
    sendEnabled: bool,
    animating: bool,
    alert: Option<Message>)

  /** The screen with `m` shown and everything the movie record does not
      touch kept: the comments, the comment field, the Send button, the
      spinner and the alert. */
  predicate ShowsRecord(r: Screen, s: Screen, m: MovieDetail)
  {
    && r.movie == Some(m) && r.titleText == m.title && r.plotText == m.plot
    && r.infoText == InfoText(m)
    && RatingPrefix <= r.ratingText && r.ratingText[|RatingPrefix|..] == m.rating
    && r.comments == s.comments && r.commentField == s.commentField
    && r.sendEnabled == s.sendEnabled && r.alert == s.alert
  }

  /** `updateUI(with:)`: the record is kept and its fields are formatted
      into the labels; nothing else on the screen changes. */
  function UpdateUI(s: Screen, m: MovieDetail): (r: Screen)
    ensures ShowsRecord(r, s, m) && r.animating == s.animating
  {
    s.(movie := Some(m), titleText := m.title, plotText := m.plot,
       infoText := InfoText(m), ratingText := RatingText(m.rating))
  }

  /** `fetchMovieDetail` with whether the URL could be built and the
      outcome of the request (a transport or decode failure is `Failed`).
      Without an ID nothing happens. The spinner starts before the URL is
      built and nothing stops it when that fails; every response stops it. */
  function FetchMovieDetail(s: Screen, imdbID: Option<string>, urlValid: bool,
                            resp: Outcome<MovieDetail>): (r: Screen)
    ensures imdbID.None? ==> r == s
    ensures imdbID.Some? && !urlValid ==> r == s.(animating := true)
    ensures imdbID.Some? && urlValid ==> !r.animating
    ensures imdbID.Some? && urlValid && resp.Failed? ==> r == s.(animating := false)
    ensures imdbID.Some? && urlValid && resp.Ok? ==> ShowsRecord(r, s, resp.value)
  {
    if imdbID.None? then s
    else if !urlValid then s.(animating := true)
    else
      match resp
      case Ok(m) => UpdateUI(s, m).(animating := false)
      case Failed => s.(animating := false)
  }

  /** After a successful fetch the labels give the record back: title and
      plot as received, the rating after the star, and (for single-line
      values) year, genre and director read off the info label. */
  lemma FetchShowsRecord(s: Screen, id: string, m: MovieDetail)
    requires '\n' !in m.year && '\n' !in m.genre && '\n' !in m.director
    ensures var r := FetchMovieDetail(s, Some(id), true, Ok(m));
      && r.titleText == m.title && r.plotText == m.plot
      && r.ratingText[|RatingPrefix|..] == m.rating
      && ParseInfo(r.infoText) == Some((m.year, m.genre, m.director))
  {
    ParseInfoText(m);
  }

  /** `fetchComments` over the comment collection `store`, with the outcome
      of the query and `now` for the decoder's missing-timestamp default.
      Without an ID nothing happens; an error keeps the comments shown. */
  function FetchComments(s: Screen, imdbID: Option<string>, store: seq<Doc>, outcome: Ack, now: int): (r: Screen)
    ensures imdbID.None? ==> r == s
    ensures imdbID.Some? ==> !r.animating && r.sendEnabled == s.sendEnabled
    ensures imdbID.Some? && outcome.Rejected? ==> r == s.(animating := false)
    ensures imdbID.Some? && outcome.Acked? ==> r == s.(animating := false, comments := r.comments)
    ensures imdbID.Some? && outcome.Acked? ==>
      && |r.comments| == |Query(store, imdbID.value)|
      && forall i :: 0 <= i < |r.comments| ==> r.comments[i] == DecodeComment(Query(store, imdbID.value)[i], now)
  {
    if imdbID.None? then s
    else
      match outcome
      case Rejected(_) => s.(animating := false)
      case Acked => s.(animating := false, comments := DecodeAll(Query(store, imdbID.value), now))
  }

  /** The screen and the comment collection after one tap of Send. */
  datatype Send = Send(screen: Screen, store: seq<Doc>)

  /** `didTapSendComment` followed by `saveCommentToFirestore`, as written.
      The comment is the text of the comment field. When there is no
      signed-in user or no ID the save returns at once, and nothing undoes
      the disabled button and the running spinner that the tap handler set
      up. `now` is the clock when the comment is stamped, `fetchNow` when
      the re-fetch decodes. */
  function SendCommentAsWritten(s: Screen, store: seq<Doc>, user: Option<User>, imdbID: Option<string>,
                                now: int, fetchNow: int, save: Ack, refetch: Ack): (r: Send)
    ensures s.commentField == [] ==> r == Send(s, store)
    ensures s.commentField != [] && (user.None? || imdbID.None?) ==>
      r == Send(s.(sendEnabled := false, animating := true, commentField := []), store)
  {
    var text := s.commentField;
    if text == [] then Send(s, store)
    else
      var pending := s.(sendEnabled := false, animating := true, commentField := []);
      if user.None? || imdbID.None? then Send(pending, store)
      else SaveComment(pending, store, text, user.value, imdbID.value, now, fetchNow, save, refetch)
  }

  /** Without a signed-in user, a non-empty comment leaves the Send button
      disabled and the spinner running, and nothing is stored. */
  lemma SendWithoutUserSticks(s: Screen, store: seq<Doc>, imdbID: Option<string>,
                              now: int, fetchNow: int, save: Ack, refetch: Ack)
    requires s.commentField != []
    ensures var r := SendCommentAsWritten(s, store, None, imdbID, now, fetchNow, save, refetch);
      !r.screen.sendEnabled && r.screen.animating && r.store == store
  {
  }

  /** The save proper: the document stamped `now` is added, the button
      re-enabled and the spinner stopped whatever the outcome; a failure
      only alerts, and a successful add re-reads the comments. */
  function SaveComment(pending: Screen, store: seq<Doc>, text: string, user: User,
                       id: string, now: int, fetchNow: int, save: Ack, refetch: Ack): (r: Send)
    ensures r.screen.sendEnabled && !r.screen.animating
    ensures r.screen == pending.(sendEnabled := true, animating := false,
                                 alert := r.screen.alert, comments := r.screen.comments)
    ensures save.Acked? ==> r.screen.alert == pending.alert
    ensures save.Rejected? ==> r.store == store && r.screen.alert == Some(CommentFailed)
    ensures save.Rejected? ==> r.screen.comments == pending.comments
    ensures save.Acked? ==> r.store == store + [CommentDoc(user.email, text, now, id)]
  {
    var settled := pending.(sendEnabled := true, animating := false);
    match save
    case Rejected(_) => Send(settled.(alert := Some(CommentFailed)), store)
    case Acked =>
      var stored := store + [CommentDoc(user.email, text, now, id)];
      Send(FetchComments(settled, Some(id), stored, refetch, fetchNow), stored)
  }

  /** One tap of Send with the early return repaired: when the save cannot
      start, the button is re-enabled and the spinner stopped as on every
      other path. */
  function SendComment(s: Screen, store: seq<Doc>, user: Option<User>, imdbID: Option<string>,
                       now: int, fetchNow: int, save: Ack, refetch: Ack): (r: Send)
    ensures s.commentField == [] ==> r == Send(s, store)
    ensures s.commentField != [] ==> r.screen.sendEnabled && !r.screen.animating && r.screen.commentField == []
    ensures s.commentField != [] && user.Some? && imdbID.Some? && save.Acked? ==>
      r.store == store + [CommentDoc(user.value.email, s.commentField, now, imdbID.value)]
    ensures !(s.commentField != [] && user.Some? && imdbID.Some? && save.Acked?) ==>
      r.store == store && r.screen.comments == s.comments
    ensures s.commentField != [] && user.Some? && imdbID.Some? && save.Rejected? ==> r.screen.alert == Some(CommentFailed)
    ensures s.commentField != [] ==> r.screen == s.(sendEnabled := true, animating := false, commentField := [],
                                                    alert := r.screen.alert, comments := r.screen.comments)
    ensures !(s.commentField != [] && user.Some? && imdbID.Some? && save.Rejected?) ==> r.screen.alert == s.alert
  {
    var text := s.commentField;
    if text == [] then Send(s, store)
    else
      var pending := s.(sendEnabled := false, animating := true, commentField := []);
      if user.None? || imdbID.None? then Send(pending.(sendEnabled := true, animating := false), store)
      else SaveComment(pending, store, text, user.value, imdbID.value, now, fetchNow, save, refetch)
  }

  /** A comment sent when the clock reads later than every stored comment
      of the movie comes back first on the re-read, with the user's e-mail
      (or "anon") as author, the text as typed and its own stamp. */
  lemma SentCommentShownFirst(s: Screen, store: seq<Doc>, user: User, id: string, now: int, fetchNow: int)
    requires s.commentField != []
    requires forall d :: d in store && InQuery(d, id) ==> SortsBelow(d, now)
    ensures var r := SendComment(s, store, Some(user), Some(id), now, fetchNow, Acked, Acked);
      && r.screen.comments != []
      && r.screen.comments[0] == Comment(if user.email.Some? then user.email.value else NoEmail, s.commentField, now)
  {
    NewCommentFirst(store, user.email, s.commentField, now, id);
    DecodeCommentDoc(user.email, s.commentField, now, id, fetchNow);
  }
}

=== FILE: email.dfy ===
/** The sign-up form's e-mail check (`isValidEmail`): the whole string must
    match `[A-Z0-9a-z._%+-]+@[A-Za-z0-9.-]+\.[A-Za-z]{2,64}`. The pattern is
    stated as a split of the string into its three parts, and a
    hand-written scanner is proved to accept exactly those strings. */
module Email {
  import opened Common

  predicate Letter(c: char)
  {
    'A' <= c <= 'Z' || 'a' <= c <= 'z'
  }

  predicate Digit(c: char)
  {
    '0' <= c <= '9'
  }

  /** `[A-Z0-9a-z._%+-]`, the local part's characters. */
  predicate LocalChar(c: char)
  {
    Letter(c) || Digit(c) || c == '.' || c == '_' || c == '%' || c == '+' || c == '-'
  }

  /** `[A-Za-z0-9.-]`, the domain's characters. */
  predicate DomainChar(c: char)
  {
    Letter(c) || Digit(c) || c == '.' || c == '-'
  }

  predicate AllLocal(t: string)
  {
    forall k :: 0 <= k < |t| ==> LocalChar(t[k])
  }

  predicate AllDomain(t: string)
  {
    forall k :: 0 <= k < |t| ==> DomainChar(t[k])
  }

  predicate AllLetters(t: string)
  {
    forall k :: 0 <= k < |t| ==> Letter(t[k])
  }

  /** Shortest and longest top-level part the pattern admits. */
  const MinTld: nat := 2
  const MaxTld: nat := 64

  /** `s` is L "@" D "." T with the `@` at `at` and the separating dot at
      `dot`: L is non-empty over the local characters, D non-empty over the
      domain characters, T two to sixty-four letters. */
  predicate SplitsAt(s: string, at: int, dot: int)
  {
    && 0 < at && at + 1 < dot < |s|
    && s[at] == '@' && s[dot] == '.'
    && AllLocal(s[..at])
    && AllDomain(s[at + 1..dot])
    && MinTld <= |s| - dot - 1 <= MaxTld
    && AllLetters(s[dot + 1..])
  }

  /** The regular expression, matched against the whole string. */
  ghost predicate MatchesPattern(s: string)
  {
    exists at, dot :: SplitsAt(s, at, dot)
  }

  /** The end of the run of local-part characters that starts at `i`. */
  function LocalRun(s: string, i: nat): (r: nat)
    requires i <= |s|
    ensures i <= r <= |s|
    ensures forall k :: i <= k < r ==> LocalChar(s[k])
    ensures r < |s| ==> !LocalChar(s[r])
    decreases |s| - i
  {
    if i == |s| || !LocalChar(s[i]) then i else LocalRun(s, i + 1)
  }

  /** The last dot in `s[lo..hi]`, if there is one. */
  function LastDot(s: string, lo: nat, hi: nat): (r: Option<nat>)
    requires lo <= hi <= |s|
    ensures r.Some? ==> lo <= r.value < hi && s[r.value] == '.'
    ensures r.Some? ==> forall k :: r.value < k < hi ==> s[k] != '.'
    ensures r.None? ==> forall k :: lo <= k < hi ==> s[k] != '.'
    decreases hi - lo
  {
    if hi == lo then None
    else if s[hi - 1] == '.' then Some(hi - 1)
    else LastDot(s, lo, hi - 1)
  }

  /** The scanner: the local part runs up to the first character outside
      its class, which must be the `@`; the top-level part starts after the
      last dot that follows it. */
  function IsValidEmail(s: string): (ok: bool)
    ensures ok ==> 2 + MinTld + 2 <= |s| && '@' in s && Letter(s[|s| - 1])
  {
    var at := LocalRun(s, 0);
    if at == 0 || at == |s| || s[at] != '@' then false
    else
      match LastDot(s, at + 1, |s|)
      case None => false
      case Some(dot) =>
        && at + 1 < dot
        && AllDomain(s[at + 1..dot])
        && MinTld <= |s| - dot - 1 <= MaxTld
        && AllLetters(s[dot + 1..])
  }

  /** The scanner accepts a string exactly when the whole string matches
      the pattern. */
  lemma IsValidEmailMatchesPattern(s: string)
    ensures IsValidEmail(s) <==> MatchesPattern(s)
  {
    if IsValidEmail(s) {
      ScannerSound(s);
    }
    if MatchesPattern(s) {
      var at, dot :| SplitsAt(s, at, dot);
      ScannerComplete(s, at, dot);
    }
  }

  /** What the scanner accepts has the split it found. */
  lemma ScannerSound(s: string)
    requires IsValidEmail(s)
    ensures SplitsAt(s, LocalRun(s, 0), LastDot(s, LocalRun(s, 0) + 1, |s|).value)
  {
    var at := LocalRun(s, 0);
    assert s[..at] == s[0..at];
  }

  /** The `@` of any match is the first character outside the local class,
      and its dot is the last one, since the top-level part holds letters
      only; so a match has one split and the scanner finds it. */
  lemma ScannerComplete(s: string, at: int, dot: int)
    requires SplitsAt(s, at, dot)
    ensures IsValidEmail(s)
  {
    forall k | 0 <= k < at ensures LocalChar(s[k]) {
      assert s[..at][k] == s[k];
    }
    assert LocalRun(s, 0) == at;
    forall k | dot < k < |s| ensures s[k] != '.' {
      assert Letter(s[dot + 1..][k - dot - 1]);
    }
    assert LastDot(s, at + 1, |s|) == Some(dot);
  }
}

=== FILE: home.dfy ===
/** The home screen (`ViewController`): the search box, the search request
    and the table that shows either the search results or the suggestions.
    The table keeps the row count it took at its last `reloadData`; until
    the next reload it asks for cells, and accepts taps, only among those
    rows, whatever the lists hold by then. */
module Home {
  import opened Common
  import opened MovieApi
  import QueryEncoding

  /** The screen's state: the search results (`movies`), the shared
      suggestion list, the search-mode flag, and the number of rows the
      table took at its last reload. */
  datatype Screen = Screen(movies: seq<Movie>, suggested: seq<Movie>, isSearching: bool, loaded: nat)

  /** A screen together with the encoded search term of the request it sent,
      if it sent one. */
  datatype Search = Search(screen: Screen, query: Option<string>)

  /** What reading the list at a row gives: the element, or a trap for an
      index past its end. */
  datatype Lookup<T> = At(value: T) | Trap

  /** The list the table shows in the current mode. */
  function Shown(s: Screen): seq<Movie>
  {
    if s.isSearching then s.movies else s.suggested
  }

  /** `numberOfRowsInSection`. */
  function RowCount(s: Screen): (n: nat)
    ensures s.isSearching ==> n == |s.movies|
    ensures !s.isSearching ==> n == |s.suggested|
  {
    if s.isSearching then |s.movies| else |s.suggested|
  }

  /** The table's rows are the rows the data source reports now. */
  predicate InSync(s: Screen)
  {
    s.loaded == RowCount(s)
  }

  /** `table.reloadData()`: the table takes the current row count; the
      lists and the mode stay as they are. */
  function Reload(s: Screen): (r: Screen)
    ensures InSync(r)
    ensures r.movies == s.movies && r.suggested == s.suggested && r.isSearching == s.isSearching
  {
    s.(loaded := RowCount(s))
  }

  /** `searchMovies` up to the request: an empty field sends nothing and
      changes nothing; otherwise the results are cleared and the encoded
      term is requested. The table is not reloaded. */
  function BeginSearch(s: Screen, text: string): (r: Search)
    ensures text == [] ==> r == Search(s, None)
    ensures text != [] ==> r.query.Some? && ' ' !in r.query.value
    ensures text != [] ==> r.query == Some(QueryEncoding.Encode(text))
    ensures text != [] ==> r.screen == s.(movies := [])
  {
    if text == [] then Search(s, None)
    else Search(s.(movies := []), Some(QueryEncoding.Encode(text)))
  }

  /** The request's completion handler: a decoded `Search` list is appended
      to the current results and the table reloaded; a transport or decode
      error returns early, before the reload. */
  function CompleteSearch(s: Screen, resp: Response): (r: Screen)
    ensures resp.Decoded? ==> r.movies == s.movies + resp.search && InSync(r)
    ensures !resp.Decoded? ==> r == s
    ensures r.suggested == s.suggested && r.isSearching == s.isSearching
  {
    match resp
    case Decoded(search) => Reload(s.(movies := s.movies + search))
    case _ => s
  }

  /** `textFieldShouldReturn`: search mode on, then the whole search, the
      response arriving before anything else touches the results. Neither
      the mode switch nor a failed request reloads the table. */
  function ShouldReturn(s: Screen, text: string, resp: Response): (r: Search)
    ensures r.screen.isSearching && r.screen.suggested == s.suggested
    ensures r.query.Some? <==> text != []
    ensures r.query.Some? ==> ' ' !in r.query.value
    ensures !resp.Decoded? ==> r.screen.loaded == s.loaded
  {
    var begun := BeginSearch(s.(isSearching := true), text);
    if begun.query.None? then begun
    else Search(CompleteSearch(begun.screen, resp), begun.query)
  }

  /** Pressing Return turns search mode on. An empty field sends no request
      and leaves the results alone; otherwise the request carries the
      encoded term and the results end up either empty (on failure) or
      exactly the decoded list, replacing the earlier results. */
  lemma ShouldReturnReplaces(s: Screen, text: string, resp: Response)
    ensures ShouldReturn(s, text, resp).screen.isSearching
    ensures ShouldReturn(s, text, resp).screen.suggested == s.suggested
    ensures text == [] ==> ShouldReturn(s, text, resp) == Search(s.(isSearching := true), None)
    ensures text != [] ==> ShouldReturn(s, text, resp).query == Some(QueryEncoding.Encode(text))
    ensures text != [] && resp.Decoded? ==> ShouldReturn(s, text, resp).screen.movies == resp.search
    ensures text != [] && !resp.Decoded? ==> ShouldReturn(s, text, resp).screen.movies == []
  {
    if text != [] && resp.Decoded? {
      assert [] + resp.search == resp.search;
    }
  }

  /** `textFieldDidChangeSelection`: an emptied field switches back to the
      suggestions and reloads the table; any other edit changes nothing. */
  function DidChangeSelection(s: Screen, text: string): (r: Screen)
    ensures text == [] ==> !r.isSearching && InSync(r)
    ensures text != [] ==> r == s
    ensures r.movies == s.movies && r.suggested == s.suggested
  {
    if text == [] then Reload(s.(isSearching := false)) else s
  }

  /** The suggestion loader's `notify` handler, with the list the group
      collected: the table is reloaded once the list is complete. */
  function SuggestionsLoaded(s: Screen, suggestions: seq<Movie>): (r: Screen)
    ensures r.suggested == suggestions && InSync(r)
    ensures r.movies == s.movies && r.isSearching == s.isSearching
  {
    Reload(s.(suggested := suggestions))
  }

  /** `cellForRowAt` for a row the table has: the movie of the current
      mode's list at that index, or a trap when the list has become
      shorter than the table. */
  function CellMovie(s: Screen, row: nat): (c: Lookup<Movie>)
    requires row < s.loaded
    ensures c.Trap? <==> row >= RowCount(s)
    ensures s.isSearching && row < |s.movies| ==> c == At(s.movies[row])
    ensures !s.isSearching && row < |s.suggested| ==> c == At(s.suggested[row])
  {
    if row < RowCount(s) then At(Shown(s)[row]) else Trap
  }

  /** `didSelectRowAt` for a row the table has: the IMDb ID handed to the
      detail screen, or a trap as in `CellMovie`. */
  function SelectRow(s: Screen, row: nat): (id: Lookup<string>)
    requires row < s.loaded
    ensures id.Trap? <==> row >= RowCount(s)
    ensures s.isSearching && row < |s.movies| ==> id == At(s.movies[row].imdbID)
    ensures !s.isSearching && row < |s.suggested| ==> id == At(s.suggested[row].imdbID)
  {
    if row < RowCount(s) then At(Shown(s)[row].imdbID) else Trap
  }

  /** The data source reads one list, the one the current mode picks: the
      row count is its length, a row shows its element and selecting the
      row opens that element. When the table is in sync with the data
      source, no row it has traps. */
  lemma RowsFollowMode(s: Screen)
    ensures RowCount(s) == |Shown(s)|
    ensures forall row :: 0 <= row < s.loaded && row < |Shown(s)| ==>
      CellMovie(s, row) == At(Shown(s)[row]) && SelectRow(s, row) == At(Shown(s)[row].imdbID)
    ensures InSync(s) ==> forall row :: 0 <= row < s.loaded ==> CellMovie(s, row).At? && SelectRow(s, row).At?
  {
  }

  /** A successful search shows exactly its hits, and selecting row `i`
      opens hit `i`; clearing the field afterwards shows the suggestions
      again, which the search never touched. */
  lemma {:induction false} SearchThenClear(s: Screen, text: string, hits: seq<Movie>)
    requires text != []
    ensures var after := ShouldReturn(s, text, Decoded(hits)).screen;
      && after.loaded == RowCount(after) == |hits|
      && (forall i :: 0 <= i < |hits| ==> SelectRow(after, i) == At(hits[i].imdbID))
      && Shown(DidChangeSelection(after, [])) == s.suggested
  {
    ShouldReturnReplaces(s, text, Decoded(hits));
  }

  /** A search whose request fails leaves the table with its old rows
      while the results are empty: once the table has any row, a tap on
      any of them while the request is outstanding, or after it failed,
      indexes past the end of the results. */
  lemma {:induction false} StaleRowsTrap(s: Screen, text: string, resp: Response)
    requires text != [] && s.loaded > 0
    ensures var pending := BeginSearch(s.(isSearching := true), text).screen;
      pending.loaded == s.loaded && SelectRow(pending, 0) == Trap && CellMovie(pending, 0) == Trap
    ensures !resp.Decoded? ==>
      var after := ShouldReturn(s, text, resp).screen;
      after.loaded == s.loaded && forall row :: 0 <= row < after.loaded ==> SelectRow(after, row) == Trap
  {
    var pending := BeginSearch(s.(isSearching := true), text).screen;
    assert RowCount(pending) == 0;
    if !resp.Decoded? {
      assert ShouldReturn(s, text, resp).screen == pending;
    }
  }

  /** `searchMovies` with the table reloaded as soon as the results are
      cleared, so that the table never has more rows than the results. */
  function BeginSearchReloading(s: Screen, text: string): (r: Search)
    ensures InSync(r.screen)
    ensures r.query == BeginSearch(s, text).query
    ensures text != [] ==> r.screen.movies == [] && r.screen.suggested == s.suggested
    ensures r.screen.isSearching == s.isSearching
  {
    var begun := BeginSearch(s, text);
    Search(Reload(begun.screen), begun.query)
  }

  /** The completion handler reloading the table on every path. */
  function CompleteSearchReloading(s: Screen, resp: Response): (r: Screen)
    ensures InSync(r)
    ensures resp.Decoded? ==> r.movies == s.movies + resp.search
    ensures !resp.Decoded? ==> r.movies == s.movies
    ensures r.suggested == s.suggested && r.isSearching == s.isSearching
  {
    match resp
    case Decoded(search) => Reload(s.(movies := s.movies + search))
    case _ => Reload(s)
  }

  /** `textFieldShouldReturn` built from the reloading steps. */
  function ShouldReturnReloading(s: Screen, text: string, resp: Response): (r: Search)
    ensures InSync(r.screen)
    ensures r.screen.isSearching && r.screen.suggested == s.suggested
    ensures r.query == ShouldReturn(s, text, resp).query
    ensures text != [] && resp.Decoded? ==> r.screen.movies == resp.search
    ensures text != [] && !resp.Decoded? ==> r.screen.movies == []
  {
    var begun := BeginSearchReloading(s.(isSearching := true), text);
    if begun.query.None? then begun
    else
      assert resp.Decoded? ==> [] + resp.search == resp.search;
      Search(CompleteSearchReloading(begun.screen, resp), begun.query)
  }

  /** With the reloads added, no row the table has traps, neither while the
      request is outstanding nor after it ends; and a successful search
      ends exactly as the search as written does. */
  lemma {:induction false} ReloadingNeverTraps(s: Screen, text: string, resp: Response)
    ensures var pending := BeginSearchReloading(s.(isSearching := true), text).screen;
      forall row :: 0 <= row < pending.loaded ==> SelectRow(pending, row).At?
    ensures var after := ShouldReturnReloading(s, text, resp).screen;
      forall row :: 0 <= row < after.loaded ==> SelectRow(after, row).At? && CellMovie(after, row).At?
    ensures text != [] && resp.Decoded? ==> ShouldReturnReloading(s, text, resp) == ShouldReturn(s, text, resp)
  {
    RowsFollowMode(BeginSearchReloading(s.(isSearching := true), text).screen);
    RowsFollowMode(ShouldReturnReloading(s, text, resp).screen);
    ShouldReturnReplaces(s, text, resp);
  }
}

=== FILE: login.dfy ===
/** The sign-in screen (`LoginViewController`): the filled-fields guards of
    sign-in and password reset, the loading state of its five controls,
    and what each auth outcome leads to. */
module Login {
  import opened Common

  /** The alerts the screen can show. */
  datatype Message =
    | EnterCredentials
    | SignInFailed(reason: string)
    | EnterEmail
    | ResetFailed(reason: string)
    | ResetSent

  /** Segue to the main screen. */
  const ShowMain: string := "showMain"

  /** The loading indicator and the five controls `setLoading` drives. */
  datatype Controls = Controls(
    indicatorHidden: bool,
    animating: bool,
    loginEnabled: bool,
    registerEnabled: bool,
    forgotEnabled: bool,
    emailEnabled: bool,
    passwordEnabled: bool)

  /** Every control's enabled flag equals `v`. */
  predicate AllEnabledAre(c: Controls, v: bool)
  {
    c.loginEnabled == v && c.registerEnabled == v && c.forgotEnabled == v
    && c.emailEnabled == v && c.passwordEnabled == v
  }

  /** The indicator shows and spins exactly when every control is
      disabled. */
  predicate LoadingConsistent(c: Controls)
  {
    c.indicatorHidden == !c.animating && AllEnabledAre(c, !c.animating)
  }

  /** `setLoading(b)`: whatever the controls were, the indicator spins and
      shows iff `b`, and every control is enabled iff not `b`. */
  function SetLoading(c: Controls, loading: bool): (r: Controls)
    ensures r.animating == loading && r.indicatorHidden == !loading
    ensures AllEnabledAre(r, !loading)
    ensures LoadingConsistent(r)
  {
    Controls(!loading, loading, !loading, !loading, !loading, !loading, !loading)
  }

  /** What one press of the sign-in button leads to: the controls at the
      end, the controls while the call is outstanding (if one was made), the
      alert shown, the credentials sent, and the segue performed. */
  datatype Run = Run(
    controls: Controls,
    waiting: Option<Controls>,
    alert: Option<Message>,
    signIn: Option<(string, string)>,
    segue: Option<string>)

  /** `loginButtonTapped` with the outcome of `signIn`. */
  function LoginTapped(c: Controls, email: string, password: string, outcome: Ack): (r: Run)
    ensures email == [] || password == [] ==> r == Run(c, None, Some(EnterCredentials), None, None)
    ensures r.signIn.Some? <==> email != [] && password != []
    ensures r.signIn.Some? ==>
      && r.signIn.value == (email, password)
      && r.waiting.Some? && r.waiting.value.animating && LoadingConsistent(r.waiting.value)
      && !r.controls.animating && LoadingConsistent(r.controls)
    ensures r.signIn.Some? && outcome.Rejected? ==>
      r.alert == Some(SignInFailed(outcome.reason)) && r.segue == None
    ensures r.segue.Some? <==> r.signIn.Some? && outcome.Acked?
    ensures r.segue.Some? ==> r.segue.value == ShowMain && r.alert == None
  {
    if email == [] || password == [] then Run(c, None, Some(EnterCredentials), None, None)
    else
      var busy := SetLoading(c, true);
      var done := SetLoading(busy, false);
      match outcome
      case Rejected(e) => Run(done, Some(busy), Some(SignInFailed(e)), Some((email, password)), None)
      case Acked => Run(done, Some(busy), None, Some((email, password)), Some(ShowMain))
  }

  /** What one press of "forgot password" leads to: the controls at the
      end, the alert, and the address a reset mail was requested for. Only
      the indicator is driven here; the controls stay as they were. */
  datatype Reset = Reset(controls: Controls, alert: Message, request: Option<string>)

  /** `forgotPasswordButtonTapped` with the outcome of `sendPasswordReset`. */
  function ForgotPassword(c: Controls, email: string, outcome: Ack): (r: Reset)
    ensures email == [] ==> r == Reset(c, EnterEmail, None)
    ensures r.request.Some? <==> email != []
    ensures r.request.Some? ==> r.request.value == email && !r.controls.animating
    ensures r.request.Some? ==> r.controls == c.(animating := false)
    ensures r.request.Some? && outcome.Acked? ==> r.alert == ResetSent
    ensures r.request.Some? && outcome.Rejected? ==> r.alert == ResetFailed(outcome.reason)
  {
    if email == [] then Reset(c, EnterEmail, None)
    else
      var spinning := c.(animating := true);
      var done := spinning.(animating := false);
      match outcome
      case Acked => Reset(done, ResetSent, Some(email))
      case Rejected(e) => Reset(done, ResetFailed(e), Some(email))
  }
}

=== FILE: movie_api.dfy ===
/** The records the movie search API returns, already decoded, and the ways
    one search request can end. */
module MovieApi {
  import opened Common

  /** One search hit (`Movie` in ViewController.swift). */
  datatype Movie = Movie(
    title: string,
    year: string,
    imdbID: string,
    kind: string,
    poster: string,
    rating: Option<string>)

  /** How a search request ends: no data or a transport error, a body that
      does not decode as a result list, or the decoded `Search` list. */
  datatype Response = TransportError | DecodeError | Decoded(search: seq<Movie>)

  /** The suggestion loader also builds its URL with a failable initialiser;
      a keyword whose URL cannot be built never reaches the network. */
  datatype KeywordFetch = BadUrl | Fetched(response: Response)

  /** The detail record fetched for one IMDb ID (`MovieDetail`). */
  datatype MovieDetail = MovieDetail(
    title: string,
    year: string,
    genre: string,
    director: string,
    plot: string,
    poster: string,
    rating: string)
}

=== FILE: query_encoding.dfy ===
/** The search-term encoding shared by the search box and the suggestion
    loader: every space becomes `%20`, every other character is kept. */
module QueryEncoding {
  import opened Common

  /** Number of occurrences of `c` in `s`. */
  function Count(s: string, c: char): nat
  {
    if s == [] then 0 else (if s[0] == c then 1 else 0) + Count(s[1..], c)
  }

  /** What one character becomes in the encoded text. */
  function EncodeChar(c: char): string
  {
    if c == ' ' then "%20" else [c]
  }

  /** `text.replacingOccurrences(of: " ", with: "%20")`. */
  function Encode(s: string): (r: string)
    ensures ' ' !in r
    ensures |r| == |s| + 2 * Count(s, ' ')
    ensures ' ' !in s ==> r == s
  {
    if s == [] then []
    else EncodeChar(s[0]) + Encode(s[1..])
  }

  /** The inverse reading: every `%20` becomes a space again. */
  function Decode(s: string): string
  {
    if s == [] then []
    else if |s| >= 3 && s[..3] == "%20" then [' '] + Decode(s[3..])
    else [s[0]] + Decode(s[1..])
  }

  /** Peeling the first character off a non-empty text, alone or with
      more text after it. */
  lemma EncodeStep(a: string, b: string)
    requires a != []
    ensures Encode(a) == EncodeChar(a[0]) + Encode(a[1..])
    ensures Encode(a + b) == EncodeChar(a[0]) + Encode(a[1..] + b)
  {
    assert (a + b)[0] == a[0];
    assert (a + b)[1..] == a[1..] + b;
  }

  /** Encoding works character by character, so it distributes over
      concatenation: the encoded text keeps the order of the input. */
  lemma {:induction false} EncodeAppend(a: string, b: string)
    ensures Encode(a + b) == Encode(a) + Encode(b)
    decreases |a|
  {
    if a == [] {
      assert a + b == b;
    } else {
      EncodeStep(a, b);
      EncodeAppend(a[1..], b);
      ConcatAssoc(EncodeChar(a[0]), Encode(a[1..]), Encode(b));
    }
  }

  /** A `%20` at the front decodes to one space. */
  lemma DecodeSpace(rest: string)
    ensures Decode("%20" + rest) == [' '] + Decode(rest)
  {
    assert ("%20" + rest)[..3] == "%20";
    assert ("%20" + rest)[3..] == rest;
  }

  /** Any character but `%` at the front decodes to itself. */
  lemma DecodeOther(c: char, rest: string)
    requires c != '%'
    ensures Decode([c] + rest) == [c] + Decode(rest)
  {
    assert ([c] + rest)[0] == c;
    assert ([c] + rest)[1..] == rest;
  }

  /** Encoding loses nothing for any text without a literal `%`: decoding
      gives the text back. */
  lemma {:induction false} DecodeEncode(s: string)
    requires '%' !in s
    ensures Decode(Encode(s)) == s
    decreases |s|
  {
    if s != [] {
      assert s == [s[0]] + s[1..];
      assert '%' !in s[1..];
      DecodeEncode(s[1..]);
      if s[0] == ' ' {
        DecodeSpace(Encode(s[1..]));
      } else {
        DecodeOther(s[0], Encode(s[1..]));
      }
    }
  }
}

=== FILE: register.dfy ===
/** The sign-up screen (`RegisterViewController`): the ordered validation
    chain, the loading state of its five controls, and the
    create-account, set-display-name, go-to-main sequence. */
module Register {
  import opened Common
  import Email

  /** The alerts the screen can show. */
  datatype Message =
    | FillAllFields
    | PasswordTooShort
    | InvalidEmail
    | SignUpFailed(reason: string)
    | ProfileFailed(reason: string)

  /** Shortest password the form lets through. */
  const MinPasswordLength: nat := 6

  /** Segue to the main screen. */
  const ShowMain: string := "showMain"

  datatype Verdict = Reject(message: Message) | Proceed

  /** The checks of `registerButtonTapped`, in order: every field filled,
      then the password length, then the e-mail format. The first failing
      check decides the message. */
  function Validate(name: string, email: string, password: string): (v: Verdict)
    ensures v == Proceed <==>
      name != [] && email != [] && password != []
      && |password| >= MinPasswordLength && Email.MatchesPattern(email)
    ensures name == [] || email == [] || password == [] ==> v == Reject(FillAllFields)
    ensures name != [] && email != [] && password != [] && |password| < MinPasswordLength
      ==> v == Reject(PasswordTooShort)
    ensures (name != [] && email != [] && |password| >= MinPasswordLength
             && !Email.MatchesPattern(email)) ==> v == Reject(InvalidEmail)
  {
    Email.IsValidEmailMatchesPattern(email);
    if name == [] || email == [] || password == [] then Reject(FillAllFields)
    else if |password| < MinPasswordLength then Reject(PasswordTooShort)
    else if !Email.IsValidEmail(email) then Reject(InvalidEmail)
    else Proceed
  }

  /** The loading indicator and the five controls `setLoading` drives. */
  datatype Controls = Controls(
    indicatorHidden: bool,
    animating: bool,
    registerEnabled: bool,
    loginEnabled: bool,
    nameEnabled: bool,
    emailEnabled: bool,
    passwordEnabled: bool)

  /** Every control's enabled flag equals `v`. */
  predicate AllEnabledAre(c: Controls, v: bool)
  {
    c.registerEnabled == v && c.loginEnabled == v && c.nameEnabled == v
    && c.emailEnabled == v && c.passwordEnabled == v
  }

  /** The indicator shows and spins exactly when every control is
      disabled. */
  predicate LoadingConsistent(c: Controls)
  {
    c.indicatorHidden == !c.animating && AllEnabledAre(c, !c.animating)
  }

  /** `setLoading(b)`: whatever the controls were, the indicator spins and
      shows iff `b`, and every control is enabled iff not `b`. */
  function SetLoading(c: Controls, loading: bool): (r: Controls)
    ensures r.animating == loading && r.indicatorHidden == !loading
    ensures AllEnabledAre(r, !loading)
    ensures LoadingConsistent(r)
  {
    Controls(!loading, loading, !loading, !loading, !loading, !loading, !loading)
  }

  /** What one press of the sign-up button leads to: the controls at the
      end, the controls while the auth calls are outstanding (if any were
      made), the alert shown, the account creation requested, the display
      name the profile change carries, and the segue performed. */
  datatype Run = Run(
    controls: Controls,
    waiting: Option<Controls>,
    alert: Option<Message>,
    signUp: Option<(string, string)>,
    displayName: Option<string>,
    segue: Option<string>)

  /** `registerButtonTapped` with the outcomes of `createUser` and of
      `commitChanges`. After a successful creation the new account is the
      current user, so the profile change is always made. */
  function RegisterTapped(c: Controls, name: string, email: string, password: string,
                          create: Ack, commit: Ack): (r: Run)
    ensures Validate(name, email, password).Reject? ==>
      r == Run(c, None, Some(Validate(name, email, password).message), None, None, None)
    ensures Validate(name, email, password) == Proceed ==>
      && r.signUp == Some((email, password))
      && r.waiting.Some? && r.waiting.value.animating && LoadingConsistent(r.waiting.value)
      && !r.controls.animating && LoadingConsistent(r.controls)
    ensures r.signUp.Some? <==> Validate(name, email, password) == Proceed
    ensures create.Rejected? ==> r.segue == None && r.displayName == None
    ensures create.Rejected? && r.signUp.Some? ==> r.alert == Some(SignUpFailed(create.reason))
    ensures r.displayName.Some? ==> r.displayName.value == name
    ensures r.signUp.Some? && create.Acked? ==> r.displayName == Some(name)
    ensures r.signUp.Some? && create.Acked? && commit.Rejected? ==> r.alert == Some(ProfileFailed(commit.reason))
    ensures r.segue.Some? <==> r.signUp.Some? && create.Acked? && commit.Acked?
    ensures r.segue.Some? ==> r.segue.value == ShowMain && r.alert == None
  {
    match Validate(name, email, password)
    case Reject(m) => Run(c, None, Some(m), None, None, None)
    case Proceed =>
      var busy := SetLoading(c, true);
      var done := SetLoading(busy, false);
      var request := Some((email, password));
      match create
      case Rejected(e) => Run(done, Some(busy), Some(SignUpFailed(e)), request, None, None)
      case Acked =>
        match commit
        case Rejected(e) => Run(done, Some(busy), Some(ProfileFailed(e)), request, Some(name), None)
        case Acked => Run(done, Some(busy), None, request, Some(name), Some(ShowMain))
  }

  /** The password-length check only ever speaks once every field is
      filled, and the e-mail check only once the password is long enough:
      an empty password is reported as a missing field, and a short
      password hides a malformed address. */
  lemma ChecksRunInOrder(name: string, email: string, password: string)
    ensures Validate(name, email, password) == Reject(PasswordTooShort) ==>
      name != [] && email != [] && 0 < |password| < MinPasswordLength
    ensures Validate(name, email, password) == Reject(InvalidEmail) ==>
      name != [] && |password| >= MinPasswordLength && !Email.MatchesPattern(email)
    ensures Validate(name, email, []) == Reject(FillAllFields)
  {
  }
}

=== FILE: suggestions.dfy ===
/** The home screen's suggestion loader (`loadSuggestions`): one search per
    fixed keyword, each successful one contributing its first two hits to a
    shared list that is cleared first, and one table reload once every
    keyword has finished. The concurrent fan-in is modelled as a sequential
    fold over the per-keyword outcomes in whatever order they arrive. */
module Suggestions {
  import opened Common
  import opened MovieApi
  import QueryEncoding

  /** The keywords the suggestions are drawn from. */
  const Keywords: seq<string> := ["batman", "harry potter", "avengers", "inception", "matrix"]

  /** The search term each keyword's request carries: the keyword with its
      spaces encoded as `%20`, in keyword order. */
  function Terms(words: seq<string>): (ts: seq<string>)
    ensures |ts| == |words|
    ensures forall k :: 0 <= k < |ts| ==> ' ' !in ts[k]
    ensures forall k :: 0 <= k < |ts| ==> ts[k] == QueryEncoding.Encode(words[k])
  {
    if words == [] then [] else [QueryEncoding.Encode(words[0])] + Terms(words[1..])
  }

  /** Each request asks for its own keyword: for keywords without a
      literal `%`, decoding the term gives the keyword back. */
  lemma TermsDecode(words: seq<string>)
    requires forall k :: 0 <= k < |words| ==> '%' !in words[k]
    ensures forall k :: 0 <= k < |words| ==> QueryEncoding.Decode(Terms(words)[k]) == words[k]
  {
    forall k | 0 <= k < |words| ensures QueryEncoding.Decode(Terms(words)[k]) == words[k] {
      QueryEncoding.DecodeEncode(words[k]);
    }
  }

  /** Hits kept from each keyword's result list. */
  const PerKeyword: nat := 2

  predicate Succeeded(f: KeywordFetch)
  {
    f.Fetched? && f.response.Decoded?
  }

  /** Number of keyword outcomes that decoded a result list. */
  function Successes(fs: seq<KeywordFetch>): (n: nat)
    ensures n <= |fs|
  {
    if fs == [] then 0
    else Successes(fs[..|fs| - 1]) + (if Succeeded(fs[|fs| - 1]) then 1 else 0)
  }

  /** What one keyword adds to the list: the first two hits of a decoded
      result list, in the API's order; nothing for a bad URL, a transport
      error or a decode error. */
  function Contribution(f: KeywordFetch): (r: seq<Movie>)
    ensures |r| <= PerKeyword
    ensures Succeeded(f) ==> r <= f.response.search
    ensures Succeeded(f) && |f.response.search| >= PerKeyword ==> |r| == PerKeyword
    ensures Succeeded(f) && |f.response.search| < PerKeyword ==> r == f.response.search
    ensures !Succeeded(f) ==> r == []
  {
    match f
    case Fetched(Decoded(search)) => Take(search, PerKeyword)
    case _ => []
  }

  /** The list after the given outcomes have been appended in arrival
      order to the cleared list. */
  function Merge(arrivals: seq<KeywordFetch>): (r: seq<Movie>)
    ensures |r| <= PerKeyword * Successes(arrivals)
    ensures |r| <= PerKeyword * |arrivals|
  {
    if arrivals == [] then []
    else Merge(arrivals[..|arrivals| - 1]) + Contribution(arrivals[|arrivals| - 1])
  }

  /** Peeling the last outcome off a non-empty arrival sequence, alone or
      after other outcomes. */
  lemma MergeStep(a: seq<KeywordFetch>, b: seq<KeywordFetch>)
    requires b != []
    ensures Merge(b) == Merge(b[..|b| - 1]) + Contribution(b[|b| - 1])
    ensures Merge(a + b) == Merge(a + b[..|b| - 1]) + Contribution(b[|b| - 1])
  {
    assert (a + b)[..|a + b| - 1] == a + b[..|b| - 1];
    assert (a + b)[|a + b| - 1] == b[|b| - 1];
  }

  /** Appending outcomes one after the other appends their contributions:
      each keyword's hits stay together and keep their order. */
  lemma {:induction false} MergeAppend(a: seq<KeywordFetch>, b: seq<KeywordFetch>)
    ensures Merge(a + b) == Merge(a) + Merge(b)
    decreases |b|
  {
    if b == [] {
      assert a + b == a;
    } else {
      var b' := b[..|b| - 1];
      MergeStep(a, b);
      MergeAppend(a, b');
      ConcatAssoc(Merge(a), Merge(b'), Contribution(b[|b| - 1]));
    }
  }

  /** Merging a list with one outcome taken out and adding that outcome's
      contribution back gives the same multiset as merging the whole list. */
  lemma {:induction false} MergeWithout(b: seq<KeywordFetch>, k: nat)
    requires k < |b|
    ensures multiset(Merge(b)) == multiset(Contribution(b[k])) + multiset(Merge(b[..k] + b[k + 1..]))
  {
    var x, pre, post := b[k], b[..k], b[k + 1..];
    SplitAt(b, k);
    MergeAppend(pre + [x], post);
    MergeAppend(pre, [x]);
    MergeAppend(pre, post);
    MergeSingle(x);
    MultisetMiddle(Merge(pre), Contribution(x), Merge(post));
  }

  /** A single outcome merges to its own contribution. */
  lemma MergeSingle(x: KeywordFetch)
    ensures Merge([x]) == Contribution(x)
  {
    assert [x][..0] == [];
  }

  /** The arrival order changes the order of the merged list, never its
      contents: any two orders of the same outcomes merge to permutations of
      each other. */
  lemma {:induction false} MergeOrderIrrelevant(a: seq<KeywordFetch>, b: seq<KeywordFetch>)
    requires multiset(a) == multiset(b)
    ensures multiset(Merge(a)) == multiset(Merge(b))
    decreases |a|
  {
    if a == [] {
      assert |b| == |multiset(b)| == 0;
    } else {
      assert a[0] in multiset(b) by {
        assert a[0] in multiset(a);
      }
      var k :| 0 <= k < |b| && b[k] == a[0];
      TailPermutation(a, b, k);
      MergeOrderIrrelevant(a[1..], b[..k] + b[k + 1..]);
      MergeWithoutFirst(a);
      MergeWithout(b, k);
    }
  }

  /** Matching the first outcome of `a` with outcome `k` of `b` leaves
      permutations of each other behind. */
  lemma TailPermutation(a: seq<KeywordFetch>, b: seq<KeywordFetch>, k: nat)
    requires a != [] && k < |b| && b[k] == a[0]
    requires multiset(a) == multiset(b)
    ensures multiset(a[1..]) == multiset(b[..k] + b[k + 1..])
  {
    RemoveFirst(a);
    RemoveAt(b, k);
  }

  /** The first outcome's contribution and the merge of the rest make up
      the merge of the whole, as multisets. */
  lemma MergeWithoutFirst(a: seq<KeywordFetch>)
    requires a != []
    ensures multiset(Merge(a)) == multiset(Contribution(a[0])) + multiset(Merge(a[1..]))
  {
    assert a[..0] + a[1..] == a[1..] by {
      assert a[..0] == [];
    }
    MergeWithout(a, 0);
  }

  /** The fan-in state: requests still outstanding in the dispatch group,
      the shared suggestion list, and how many times the completion handler
      (the table reload) has run. */
  datatype Aggregation = Aggregation(pending: nat, suggestions: seq<Movie>, reloads: nat)

  /** Clearing the list, entering the group once per keyword, and
      registering the completion handler, which a group with nothing
      outstanding runs at once. */
  function Begin(keywordCount: nat): (g: Aggregation)
    ensures g.suggestions == [] && g.pending == keywordCount
    ensures g.reloads <= 1 && (g.reloads == 1 <==> keywordCount == 0)
  {
    Aggregation(keywordCount, [], if keywordCount == 0 then 1 else 0)
  }

  /** One keyword path finishing: its contribution is appended and it
      leaves the group; the last leave runs the completion handler. A leave
      with nothing outstanding would be unbalanced, so it is excluded. */
  function Arrive(g: Aggregation, f: KeywordFetch): (r: Aggregation)
    requires g.pending > 0
    ensures r.pending == g.pending - 1
    ensures r.suggestions == g.suggestions + Contribution(f)
  {
    Aggregation(g.pending - 1, g.suggestions + Contribution(f),
                g.reloads + (if g.pending == 1 then 1 else 0))
  }

  /** Several keyword paths finishing in the given order. */
  function Run(g: Aggregation, arrivals: seq<KeywordFetch>): (r: Aggregation)
    requires |arrivals| <= g.pending
    ensures r.pending == g.pending - |arrivals|
    ensures r.suggestions == g.suggestions + Merge(arrivals)
    ensures r.reloads == g.reloads + (if |arrivals| == g.pending && g.pending > 0 then 1 else 0)
  {
    if arrivals == [] then g
    else
      var last := arrivals[|arrivals| - 1];
      var before := Run(g, arrivals[..|arrivals| - 1]);
      assert before.pending == g.pending - (|arrivals| - 1);
      MergeStep([], arrivals);
      ConcatAssoc(g.suggestions, Merge(arrivals[..|arrivals| - 1]), Contribution(last));
      Arrive(before, last)
  }

  /** The reload runs only after every keyword has finished, and then
      exactly once; until then it has not run at all. */
  lemma ReloadOnlyAfterAll(n: nat, arrivals: seq<KeywordFetch>)
    requires n > 0 && |arrivals| <= n
    ensures Run(Begin(n), arrivals).reloads == (if |arrivals| == n then 1 else 0)
    ensures Run(Begin(n), arrivals).suggestions == Merge(arrivals)
  {
  }

  /** `loadSuggestions` from start to the completion handler: `fetches`
      holds each keyword's outcome in keyword order (the request for
      keyword `k` asks for `Terms(Keywords)[k]`), `arrivals` the same
      outcomes in the order their callbacks ran. */
  method LoadSuggestions(fetches: seq<KeywordFetch>, arrivals: seq<KeywordFetch>)
    returns (g: Aggregation)
    requires |fetches| == |Keywords|
    requires multiset(arrivals) == multiset(fetches)
    ensures g.pending == 0 && g.reloads == 1
    ensures g.suggestions == Merge(arrivals)
    ensures multiset(g.suggestions) == multiset(Merge(fetches))
    ensures |g.suggestions| <= PerKeyword * Successes(fetches) <= PerKeyword * |Keywords|
  {
    assert |arrivals| == |multiset(arrivals)| == |fetches|;
    g := Begin(|Keywords|);
    var i := 0;
    while i < |arrivals|
      invariant i <= |arrivals|
      invariant g.pending == |Keywords| - i
      invariant g.suggestions == Merge(arrivals[..i])
      invariant g.reloads == (if i == |Keywords| then 1 else 0)
    {
      assert arrivals[..i + 1][..i] == arrivals[..i];
      g := Arrive(g, arrivals[i]);
      i := i + 1;
    }
    assert arrivals[..i] == arrivals;
    MergeOrderIrrelevant(arrivals, fetches);
    assert |g.suggestions| == |multiset(g.suggestions)| == |multiset(Merge(fetches))| == |Merge(fetches)|;
  }
}

=== FILE: watchlist.dfy ===
/** The watchlist screen (`WatchlistViewController`): reading the user's
    watchlist collection into entries, dropping any document that lacks one
    of the fields an entry needs. */
module Watchlist {
  import opened Common

  /** One row of the watchlist (`WatchlistMovie`). */
  datatype WatchlistMovie = WatchlistMovie(movieID: string, title: string, posterURL: string, year: string)

  const TitleKey: string := "title"
  const PosterKey: string := "poster"
  const YearKey: string := "year"

  /** The document holds title, poster and year, each as a string. */
  predicate HasEntryFields(d: Document)
  {
    StrField(d.data, TitleKey).Some? && StrField(d.data, PosterKey).Some?
    && StrField(d.data, YearKey).Some?
  }

  /** The closure of the `compactMap`: an entry keyed by the document ID
      when every field is there, otherwise nothing. */
  function ToEntry(d: Document): (r: Option<WatchlistMovie>)
    ensures r.Some? <==> HasEntryFields(d)
    ensures r.Some? ==> r.value.movieID == d.id
    ensures r.Some? ==> Some(r.value.title) == StrField(d.data, TitleKey)
    ensures r.Some? ==> Some(r.value.posterURL) == StrField(d.data, PosterKey)
    ensures r.Some? ==> Some(r.value.year) == StrField(d.data, YearKey)
  {
    match (StrField(d.data, TitleKey), StrField(d.data, PosterKey), StrField(d.data, YearKey))
    case (Some(title), Some(poster), Some(year)) => Some(WatchlistMovie(d.id, title, poster, year))
    case _ => None
  }

  /** What one document contributes to the list: its entry, or nothing. */
  function EntryOf(d: Document): seq<WatchlistMovie>
  {
    match ToEntry(d) case Some(m) => [m] case None => []
  }

  /** Number of documents with every entry field. */
  function CountComplete(docs: seq<Document>): (n: nat)
    ensures n <= |docs|
  {
    if docs == [] then 0 else (if HasEntryFields(docs[0]) then 1 else 0) + CountComplete(docs[1..])
  }

  /** The `compactMap` over the snapshot's documents. */
  function Entries(docs: seq<Document>): (r: seq<WatchlistMovie>)
    ensures |r| == CountComplete(docs) <= |docs|
    ensures forall m :: m in r <==> exists d :: d in docs && ToEntry(d) == Some(m)
  {
    if docs == [] then []
    else
      var rest := Entries(docs[1..]);
      assert forall d :: d in docs <==> d == docs[0] || d in docs[1..];
      EntryOf(docs[0]) + rest
  }

  /** Entries keep the documents' order: the entries of a concatenation are
      the concatenation of the entries, so the result is an ordered
      selection of the snapshot. */
  lemma {:induction false} EntriesAppend(a: seq<Document>, b: seq<Document>)
    ensures Entries(a + b) == Entries(a) + Entries(b)
    decreases |a|
  {
    if a == [] {
      assert a + b == b;
    } else {
      EntriesStep(a, b);
      EntriesAppend(a[1..], b);
      ConcatAssoc(EntryOf(a[0]), Entries(a[1..]), Entries(b));
    }
  }

  /** Peeling the first document off a non-empty snapshot, alone or with
      more documents after it. */
  lemma EntriesStep(a: seq<Document>, b: seq<Document>)
    requires a != []
    ensures Entries(a) == EntryOf(a[0]) + Entries(a[1..])
    ensures Entries(a + b) == EntryOf(a[0]) + Entries(a[1..] + b)
  {
    assert (a + b)[0] == a[0];
    assert (a + b)[1..] == a[1..] + b;
  }

  /** A snapshot whose documents all carry the fields loses none of them:
      entry `i` is document `i`. */
  lemma {:induction false} EntriesOfComplete(docs: seq<Document>)
    requires forall i :: 0 <= i < |docs| ==> HasEntryFields(docs[i])
    ensures |Entries(docs)| == |docs|
    ensures forall i :: 0 <= i < |docs| ==> Some(Entries(docs)[i]) == ToEntry(docs[i])
    decreases |docs|
  {
    if docs != [] {
      var tail := docs[1..];
      forall i | 0 <= i < |tail| ensures HasEntryFields(tail[i]) {
        assert tail[i] == docs[i + 1];
      }
      EntriesOfComplete(tail);
      EntriesOfCompleteStep(docs);
    }
  }

  /** The inductive step of `EntriesOfComplete`: a complete first document
      becomes the first entry, and the entries of the rest follow it. */
  lemma EntriesOfCompleteStep(docs: seq<Document>)
    requires docs != [] && HasEntryFields(docs[0])
    requires |Entries(docs[1..])| == |docs[1..]|
    requires forall i :: 0 <= i < |docs[1..]| ==> Some(Entries(docs[1..])[i]) == ToEntry(docs[1..][i])
    ensures |Entries(docs)| == |docs|
    ensures forall i :: 0 <= i < |docs| ==> Some(Entries(docs)[i]) == ToEntry(docs[i])
  {
    var tail := docs[1..];
    assert Entries(docs) == [ToEntry(docs[0]).value] + Entries(tail);
    forall i | 0 < i < |docs| ensures Some(Entries(docs)[i]) == ToEntry(docs[i]) {
      assert docs[i] == tail[i - 1];
    }
  }

  /** `fetchWatchlist` with the signed-in user's ID and the outcome of the
      collection read (`Ok(None)` is a missing snapshot). No user, or an
      error, leaves the list as it was; a missing snapshot empties it. */
  function FetchWatchlist(current: seq<WatchlistMovie>, uid: Option<string>,
                          result: Outcome<Option<seq<Document>>>): (r: seq<WatchlistMovie>)
    ensures uid.None? || result.Failed? ==> r == current
    ensures uid.Some? && result == Ok(None) ==> r == []
    ensures uid.Some? && result.Ok? && result.value.Some? ==>
      r == Entries(result.value.value) && |r| <= |result.value.value|
  {
    if uid.None? then current
    else
      match result
      case Failed => current
      case Ok(None) => []
      case Ok(Some(docs)) => Entries(docs)
  }

  /** `numberOfRowsInSection`: one row per entry. */
  function RowCount(watchlist: seq<WatchlistMovie>): nat
  {
    |watchlist|
  }

  /** After a successful read the table has one row per document that
      carries every field; after a failed read it keeps its rows. */
  lemma RowsAfterFetch(current: seq<WatchlistMovie>, uid: string, result: Outcome<Option<seq<Document>>>)
    ensures result.Failed? ==> RowCount(FetchWatchlist(current, Some(uid), result)) == |current|
    ensures result.Ok? && result.value.Some? ==>
      RowCount(FetchWatchlist(current, Some(uid), result)) == CountComplete(result.value.value)
  {
  }
}

=== FILE: watchlist_toggle.dfy ===
/** The detail screen's watchlist button (`didTapWatchlist`,
    `checkWatchlistStatus`): a set-membership toggle on the signed-in
    user's watchlist collection, with the button label derived from
    membership. */
module WatchlistToggle {
  import opened Common
  import opened MovieApi
  import Watchlist

  /** The store's watchlists: user ID to (movie ID to document). */
  type Collections = map<string, map<string, Doc>>

  /** A user's watchlist collection; a user never written to has an empty
      one. */
  function CollectionOf(w: Collections, uid: string): map<string, Doc>
  {
    if uid in w then w[uid] else map[]
  }

  predicate Listed(w: Collections, uid: string, id: string)
  {
    id in CollectionOf(w, uid)
  }

  const AddLabel: string := "+ Watchlist"
  const ListedLabel: string := "\U{2713} Watchlisted"

  /** The label the button shows for a movie that is, or is not, on the
      watchlist. */
  function StatusLabel(listed: bool): string
  {
    if listed then ListedLabel else AddLabel
  }

  /** The document written when a movie is added. */
  function EntryDoc(m: MovieDetail): (d: Doc)
    ensures StrField(d, Watchlist.TitleKey) == Some(m.title)
    ensures StrField(d, Watchlist.YearKey) == Some(m.year)
    ensures StrField(d, Watchlist.PosterKey) == Some(m.poster)
  {
    map[Watchlist.TitleKey := Str(m.title), Watchlist.YearKey := Str(m.year),
        Watchlist.PosterKey := Str(m.poster)]
  }

  /** The alerts the toggle can show. */
  datatype Message = AddFailed | RemoveFailed

  datatype Button = Button(caption: string, enabled: bool)

  /** The store, the button and the alert after one tap. */
  datatype Toggle = Toggle(store: Collections, button: Button, alert: Option<Message>)

  /** `didTapWatchlist` with the outcome of the existence read (`readOk`)
      and of the delete or set that follows. A failed read is taken as
      "not listed", so it leads to a set. */
  function DidTapWatchlist(w: Collections, b: Button, imdbID: Option<string>, uid: Option<string>,
                           movie: Option<MovieDetail>, readOk: bool, write: Ack): (r: Toggle)
    ensures imdbID.None? || uid.None? || movie.None? ==> r == Toggle(w, b, None)
    ensures imdbID.Some? && uid.Some? && movie.Some? ==> r.button.enabled
    ensures imdbID.Some? && uid.Some? && movie.Some? && write.Rejected? ==>
      && r.store == w && r.button.caption == b.caption
      && r.alert == Some(if readOk && Listed(w, uid.value, imdbID.value) then RemoveFailed else AddFailed)
    ensures imdbID.Some? && uid.Some? && movie.Some? && write.Acked? ==>
      && r.alert == None
      && r.button.caption == StatusLabel(Listed(r.store, uid.value, imdbID.value))
    ensures imdbID.Some? && uid.Some? && movie.Some? && write.Acked? && readOk ==>
      Listed(r.store, uid.value, imdbID.value) == !Listed(w, uid.value, imdbID.value)
    ensures imdbID.Some? && uid.Some? && movie.Some? && write.Acked? && !readOk ==>
      Listed(r.store, uid.value, imdbID.value)
    ensures (imdbID.Some? && uid.Some? && movie.Some? && write.Acked?
             && Listed(r.store, uid.value, imdbID.value)) ==>
      CollectionOf(r.store, uid.value)[imdbID.value] == EntryDoc(movie.value)
    ensures uid.Some? && imdbID.Some? ==>
      && (forall u :: u != uid.value ==> CollectionOf(r.store, u) == CollectionOf(w, u))
      && CollectionOf(r.store, uid.value) - {imdbID.value} == CollectionOf(w, uid.value) - {imdbID.value}
  {
    if imdbID.None? || uid.None? || movie.None? then Toggle(w, b, None)
    else
      var id, u, m := imdbID.value, uid.value, movie.value;
      var c := CollectionOf(w, u);
      if readOk && id in c then
        match write
        case Acked => Toggle(w[u := c - {id}], Button(AddLabel, true), None)
        case Rejected(_) => Toggle(w, b.(enabled := true), Some(RemoveFailed))
      else
        match write
        case Acked => Toggle(w[u := c[id := EntryDoc(m)]], Button(ListedLabel, true), None)
        case Rejected(_) => Toggle(w, b.(enabled := true), Some(AddFailed))
  }

  /** Two successful taps in a row bring membership back to where it
      started, and the label with it; a movie that was not listed leaves
      every collection exactly as it was. */
  lemma DoubleToggle(w: Collections, b: Button, id: string, uid: string, m: MovieDetail)
    ensures var once := DidTapWatchlist(w, b, Some(id), Some(uid), Some(m), true, Acked);
      var twice := DidTapWatchlist(once.store, once.button, Some(id), Some(uid), Some(m), true, Acked);
      && Listed(twice.store, uid, id) == Listed(w, uid, id)
      && twice.button.caption == StatusLabel(Listed(w, uid, id))
      && (!Listed(w, uid, id) ==> forall u :: CollectionOf(twice.store, u) == CollectionOf(w, u))
  {
    var once := DidTapWatchlist(w, b, Some(id), Some(uid), Some(m), true, Acked);
    var twice := DidTapWatchlist(once.store, once.button, Some(id), Some(uid), Some(m), true, Acked);
    if !Listed(w, uid, id) {
      forall u ensures CollectionOf(twice.store, u) == CollectionOf(w, u) {
        if u == uid {
          assert CollectionOf(twice.store, u) == CollectionOf(w, u)[id := EntryDoc(m)] - {id};
        }
      }
    }
  }

  /** `checkWatchlistStatus`: with an IMDb ID and a signed-in user the label
      shows whether the movie is listed, a failed read counting as not
      listed; otherwise the button is left alone. */
  function CheckWatchlistStatus(w: Collections, b: Button, imdbID: Option<string>, uid: Option<string>,
                                readOk: bool): (r: Button)
    ensures imdbID.None? || uid.None? ==> r == b
    ensures imdbID.Some? && uid.Some? ==>
      r.caption == StatusLabel(readOk && Listed(w, uid.value, imdbID.value)) && r.enabled == b.enabled
  {
    if imdbID.None? || uid.None? then b
    else b.(caption := StatusLabel(readOk && Listed(w, uid.value, imdbID.value)))
  }

  /** After a successful tap the label already says what a status check
      would say. */
  lemma TapAgreesWithStatus(w: Collections, b: Button, id: string, uid: string, m: MovieDetail, readOk: bool)
    ensures var r := DidTapWatchlist(w, b, Some(id), Some(uid), Some(m), readOk, Acked);
      r.button == CheckWatchlistStatus(r.store, r.button, Some(id), Some(uid), true)
  {
  }

  /** A snapshot lists a collection: each document is one of its entries
      and each entry appears. */
  predicate SnapshotOf(docs: seq<Document>, c: map<string, Doc>)
  {
    && (forall d :: d in docs ==> d.id in c && c[d.id] == d.data)
    && (forall id :: id in c ==> Document(id, c[id]) in docs)
  }

  /** After a successful add the watchlist screen shows the movie, with the
      title, poster and year the detail screen had; after a successful
      remove it does not show the movie at all. */
  lemma TapShowsOnWatchlist(w: Collections, b: Button, id: string, uid: string, m: MovieDetail,
                            readOk: bool, docs: seq<Document>)
    requires var r := DidTapWatchlist(w, b, Some(id), Some(uid), Some(m), readOk, Acked);
      SnapshotOf(docs, CollectionOf(r.store, uid))
    ensures var r := DidTapWatchlist(w, b, Some(id), Some(uid), Some(m), readOk, Acked);
      && (Listed(r.store, uid, id) ==>
            Watchlist.WatchlistMovie(id, m.title, m.poster, m.year) in Watchlist.Entries(docs))
      && (!Listed(r.store, uid, id) ==>
            forall e :: e in Watchlist.Entries(docs) ==> e.movieID != id)
  {
    var r := DidTapWatchlist(w, b, Some(id), Some(uid), Some(m), readOk, Acked);
    var c := CollectionOf(r.store, uid);
    if Listed(r.store, uid, id) {
      var d := Document(id, c[id]);
      assert d in docs;
      assert Watchlist.ToEntry(d) == Some(Watchlist.WatchlistMovie(id, m.title, m.poster, m.year));
    } else {
      forall e | e in Watchlist.Entries(docs) ensures e.movieID != id {
        var d :| d in docs && Watchlist.ToEntry(d) == Some(e);
        assert d.id in c;
      }
    }
  }
}
